=== FILE: README.md ===
# Jass Collection storefront: a Dafny model of its rules

Jass Collection is a Next.js storefront for suits. This project models its server-side request
handling and its client-side cart and catalog rules, and proves properties of them:

- **Request gate** (`Gate`): which pathnames pass, redirect to `/login` or `/`, or get a JSON
  401/403, given the `auth-token` cookie and the token verifier's answer.
- **File-backed store** (`Data`): the products and users files as `seq` fields of a `Store`
  class, with lookups, append, shallow-merge update and filter-delete.
- **Auth and admin handlers**: register (`RegisterRoute`), login (`LoginRoute`), current user
  (`MeRoute`), admin product list and create (`AdminProductsRoute`), and media upload
  (`UploadRoute`).
  - Each handler is a guard chain from its inputs to a status and body. Where it writes the
    store, a method carries that write.
  - The hand-written `Cookie` header parser shared by three handlers is modelled once
    (`Cookies`). It is a simplified form of the `Cookie` header of section 5.4 of RFC 6265.
  - For that parser, a round trip is proved: serializing distinct, separator-free pairs and
    parsing them back gives every value.
- **Client rules**:
  - the cart page's quantity updates, removals and totals (`CartPage`);
  - add-to-cart merging, price selection and stock badges (`ProductCard`);
  - the catalog's search filter and sort orders (`ProductsPage`);
  - the admin add-product form (`AddProductPage`);
  - the visitor's location and currency (`GeoContext`).

JSON values are `Json.Value`, and a record is a `map<string, Value>`. A missing key is
`undefined`: `Json.Get` returns `None` for it. JavaScript's `===` is `Json.StrictEq`:

- primitives compare by value;
- `undefined === undefined` holds;
- arrays and objects never compare equal, because separately parsed documents share no
  object.

Object spread `{...a, ...b}` is the right-biased map union `a + b`. Truthiness follows
JavaScript: `null`, `undefined`, `false`, `0` and `""` are falsy.

Some inputs are parameters rather than computed:

- Token signing and verification, password hashing and comparison are functions passed in:
  - `verify: string -> Option<Record>`, where `None` is a token that fails verification;
  - `sign`, `hash` and `compare`.
- Generated ids, the clock (`Date.now()`, ISO timestamps) and `Math.random()`.
- Request bodies are `Option<Record>`, where `None` is a body whose `request.json()` threw.

## Model

| member | source | states |
|---|---|---|
| Gate.IsPublic | src/middleware.js:8-19 | the allow-list: a path passes unguarded when it starts with `/_next`, `/api/auth`, `/api/products` or `/api/countries`, contains a `.`, or is exactly `/login`, `/register` or `/`; Middleware's first ensures and DottedPathSkipsGuards state its effect |
| Gate.Token | src/middleware.js:5 | the token is the cookie's value when it is present and non-empty, and nothing otherwise |
| Gate.Middleware | src/middleware.js:4-74 | the full decision table: public paths pass; `/admin` redirects to `/login` without a token and to `/` for an invalid or non-admin one; `/api/admin` never redirects, giving 401 without a token and 403 otherwise; customer paths need any verified token; only `/api/admin` ever rejects |
| Gate.PrefixesDisjoint | src/middleware.js:22-71 | the `/admin`, `/api/admin` and customer prefixes never overlap, so at most one guard applies |
| Gate.Required | src/middleware.js:8-71 | an admin-only path is never a customer path |
| Gate.MiddlewareMatchesPolicy | src/middleware.js:4-74 | the gate passes a request if and only if the cookie and verification meet the access level the path requires (open, signed in, admin) |
| Gate.AdminPassesEverywhere | src/middleware.js:22-73 | a token that verifies with role `admin` passes on every path |
| Gate.NonAdminBlockedOnlyUnderAdmin | src/middleware.js:22-73 | a verified non-admin token is blocked exactly on non-public `/admin` and `/api/admin` paths |
| Gate.UnguardedPathsIgnoreToken | src/middleware.js:5-73 | outside the guarded prefixes every request passes, whatever the cookie and verifier |
| Gate.DependsOnlyOnVerification | src/middleware.js:5-73 | the decision depends only on the pathname, whether a token is present and what verifying it returns |
| Gate.DottedPathSkipsGuards | src/middleware.js:8-19 | the allow-list (`IsPublic`) is checked before any guard and admits every path containing a dot, so `/api/admin/products.json` passes without a token |
| Data.FindIndex | src/lib/data.js:14-18 | the index of the first record whose field strictly equals the key, or nothing exactly when none does |
| Data.Find | src/lib/data.js:14-18 | `find`: the first matching record, or nothing exactly when no record matches |
| Data.RemoveMatching | src/lib/data.js:49-50 | the filter keeps exactly the records whose field does not match |
| Data.RemoveMatchingAppend | src/lib/data.js:49-50 | the filter distributes over concatenation, so it keeps the others in order |
| Data.RemoveMatchingNone | src/lib/data.js:49-50 | deleting an id that no record has leaves the list unchanged |
| Data.NewProduct | src/lib/data.js:22-27 | the stored product has every input field, with `id` = `suit-` + the timestamp's digits and a fresh `createdAt` overriding any supplied ones |
| Data.IdDeterminesTimestamp | src/lib/data.js:24 | two products stamped with the same `id` were stamped at the same `Date.now()` reading, so distinct readings give distinct ids |
| Data.NewUser | src/lib/data.js:77-81 | the stored user has every input field plus a fresh `createdAt` |
| Data.Updated | src/lib/data.js:34-44 | nothing when no product has the id; otherwise only the first match is replaced by its shallow merge with the patch (patch keys win, length unchanged) |
| Data.Store.GetProductById | src/lib/data.js:14-18 | nothing exactly when no product's `id` matches, otherwise the first stored product whose `id` matches |
| Data.Store.GetUserByEmail | src/lib/data.js:63-67 | nothing exactly when no user's `email` strictly (case-sensitively) matches, otherwise the first stored matching user |
| Data.Store.GetUserById | src/lib/data.js:69-73 | nothing exactly when no user's `id` matches, otherwise the first stored matching user |
| Data.Store.AddProduct | src/lib/data.js:20-32 | the products file becomes the old one plus exactly the stamped product, which is returned; users are unchanged |
| Data.Store.UpdateProduct | src/lib/data.js:34-44 | no write and a null result for an unknown id; otherwise the file becomes the updated list and the merged product is returned |
| Data.Store.DeleteProduct | src/lib/data.js:46-53 | the file becomes the list without every product with that id, and the result is always true |
| Data.Store.AddUser | src/lib/data.js:75-86 | the users file becomes the old one plus the stamped user, with no uniqueness check |
| Cookies.ParseEntry | src/app/api/auth/me/route.js:16-20 | a piece's name is its text before the first `=`, or the whole piece when it has none; its value is the text between the first and second `=`, or `undefined` without any `=` |
| Cookies.FromEntries | src/app/api/auth/me/route.js:16-20 | `Object.fromEntries`: the names present are exactly the entries' names |
| Cookies.FromEntriesLastWins | src/app/api/auth/me/route.js:16-20 | a later entry with the same name overwrites an earlier one: the last one wins |
| Cookies.Lookup | src/app/api/auth/me/route.js:22 | the token is the named value when it is present and truthy |
| Cookies.AuthToken | src/app/api/auth/me/route.js:8-28 | a missing or empty `Cookie` header gives no token, and a token is never empty |
| Cookies.ParsedNames | src/app/api/auth/me/route.js:16-20 | the names parsed from a serialized header are exactly the serialized names |
| Cookies.AuthTokenOfSerialized | src/app/api/auth/me/route.js:8-28 | for a header serialized from distinct, separator-free pairs, the token is the `auth-token` pair's value when it is non-empty, and there is none when that name is absent or its value empty |
| Cookies.ParseEntryOfPiece | src/app/api/auth/me/route.js:16-20 | a `name=value` piece with no `=` or `; ` in either part parses back to that pair |
| Cookies.SplitSerialized | src/app/api/auth/me/route.js:16 | splitting a serialized header on `; ` gives back exactly its `name=value` pieces |
| Cookies.ParseSerialized | src/app/api/auth/me/route.js:16-22 | round trip: for distinct names and values free of `=` and `; `, parsing the joined header yields each name's value |
| Text.IndexOf | src/app/api/auth/me/route.js:16-18 | the first position where the separator occurs, or nothing when it occurs nowhere |
| Text.Split | src/app/api/auth/me/route.js:16-18 | `split`: joining the pieces with the separator restores the string, no piece contains the separator, and the first piece ends at the separator's first occurrence (a single piece exactly when there is none); this fixes the pieces for a separator that cannot overlap itself |
| Text.SplitStep | src/app/api/auth/me/route.js:16-18 | after the first piece, `split` continues on the text that follows the separator's first occurrence |
| Text.SplitJoin | src/app/api/auth/me/route.js:16-18 | splitting pieces joined by a separator they do not contain gives back the pieces |
| Text.Decimal | src/lib/data.js:24 | `String(Date.now())` is a non-empty string of digits, with no leading zero, whose decimal value is the number |
| Json.Merge | src/lib/data.js:40 | `{...a, ...b}`: the keys of both; the patch's values win, the rest keep theirs |
| Json.Without | src/app/api/auth/register/route.js:42 | rest destructuring: every field but the removed one, unchanged |
| Json.Or | src/app/api/admin/products/route.js:91-99 | `a \|\| b` is `a` when truthy, else `b` |
| RegisterRoute.Plan | src/app/api/auth/register/route.js:5-58 | an unreadable body gives 500; a falsy name, email or password gives 400; an existing email gives 409; otherwise 201 with a customer user whose password is the hash and whose response copy has no `password`, unless hashing throws (500) |
| RegisterRoute.Post | src/app/api/auth/register/route.js:28-39 | the users file changes exactly as the plan says, and products are untouched |
| RegisterRoute.RegisterAppendsAtMostOne | src/app/api/auth/register/route.js:11-39 | a rejected request leaves the users unchanged; an accepted one appends exactly one user at the end |
| RegisterRoute.RegisterKeepsEmailsDistinct | src/app/api/auth/register/route.js:19-39 | if stored emails are distinct before a registration, they are distinct after it |
| RegisterRoute.SequentialRegisterKeepsEmailsDistinct | src/app/api/auth/register/route.js:19-39 | the same holds for any sequence of registrations, one after another |
| RegisterRoute.SecondRegistrationConflicts | src/app/api/auth/register/route.js:19-25 | registering the same string email a second time answers 409 |
| LoginRoute.TokenClaims | src/app/api/auth/login/route.js:38-42 | the token is signed over exactly the user's `id`, `email` and `role` |
| LoginRoute.Login | src/app/api/auth/login/route.js:5-72 | 500 for an unreadable body, 400 for a falsy email or password; 401 with the identical message for an unknown email and for a wrong password; a known email whose password compares equal gives 200 and a throwing comparison 500; a cookie exactly on 200, with the user minus `password`, the signed claims and `auth-token`, httpOnly, path `/`, sameSite lax, 7 days |
| MeRoute.Me | src/app/api/auth/me/route.js:4-59 | 401 exactly when there is no token or it fails verification: "No authentication token" without a token, "Invalid token" on failed verification; 404 exactly when the verified id matches no user, otherwise 200 with the user minus `password` |
| AdminProductsRoute.CheckAdminAuth | src/app/api/admin/products/route.js:6-30 | the claims are returned exactly when a token is present and verifies with role `admin` |
| AdminProductsRoute.List | src/app/api/admin/products/route.js:32-52 | 403 "Admin access required" on a failed admin check, else all products |
| AdminProductsRoute.BuildProduct | src/app/api/admin/products/route.js:88-100 | exactly the eleven product fields; truthy prices kept and falsy ones derived; falsy `images`/`videos` become `[]`, `stock` 0 and `countryAvailability` the four defaults |
| AdminProductsRoute.PostPlan | src/app/api/admin/products/route.js:54-110 | 403 before anything else, 500 for an unreadable body, 400 for a missing title, description, non-zero price or non-empty sizes; a product is inserted exactly for a valid admin request; never 401 |
| AdminProductsRoute.Post | src/app/api/admin/products/route.js:102-104 | a valid request appends exactly the built product; a rejected one leaves the store unchanged |
| AdminProductsRoute.ExtraFieldsDropped | src/app/api/admin/products/route.js:65-100 | body fields other than the eleven are not persisted |
| UploadRoute.Extension | src/app/api/admin/upload/route.js:74 | the text after the last `.`, which contains no `.`, or the whole name when it has none |
| UploadRoute.FileName | src/app/api/admin/upload/route.js:75 | the generated file name ends with `.` and the extension |
| UploadRoute.FileRejection | src/app/api/admin/upload/route.js:47-70 | the file checks in order: a missing entry or an empty text field gives 400 "No file uploaded" (a 0-byte file is present and goes on), a type outside the four allowed gives 400, over 10 MiB gives 400; none fails exactly for an allowed file within the limit |
| UploadRoute.Upload | src/app/api/admin/upload/route.js:32-107 | checks run in order (admin 403, readable form 500, file present 400, allowed type 400, at most 10 MiB 400), the first failing one decides; success is 200 with url `/uploads/` + file name |
| UploadRoute.ExactlyTenMegabytesAccepted | src/app/api/admin/upload/route.js:64-70 | a file of exactly 10485760 bytes of an allowed type is accepted |
| Catalog.TotalQuantityAt | src/components/ProductCard.jsx:31-32 | changing one line's quantity changes the cart's unit count by the difference |
| Catalog.TotalQuantityAppend | src/components/ProductCard.jsx:33-41 | appending a line adds its quantity to the unit count |
| CartPage.RemoveAt | src/app/cart/page.js:37-41 | `filter` by index drops exactly the line at a valid index and keeps the others in order; any other index keeps everything |
| CartPage.WithQuantity | src/app/cart/page.js:31-32 | only that line's quantity changes; length and other lines are unchanged |
| CartPage.Subtotal | src/app/cart/page.js:52-54 | `calculateSubtotal`: the left fold of price times quantity starting from 0; its properties are SubtotalCons, SubtotalBounds, SubtotalRemoveAt and SubtotalWithQuantity |
| CartPage.SubtotalBounds | src/app/cart/page.js:52-54 | with no negative price or quantity the subtotal is not negative and is at least every line's price times quantity |
| CartPage.SubtotalCons | src/app/cart/page.js:52-54 | the left-fold subtotal equals the first line's amount plus the rest's |
| CartPage.SubtotalRemoveAt | src/app/cart/page.js:37-54 | removing a line takes exactly its price times quantity off the subtotal |
| CartPage.SubtotalWithQuantity | src/app/cart/page.js:25-54 | a quantity change moves the subtotal by price times the difference |
| CartPage.Shipping | src/app/cart/page.js:56-59 | free exactly when the subtotal is over 500, otherwise 50 |
| CartPage.Total | src/app/cart/page.js:61-63 | the total equals the subtotal exactly when it is over 500, and the subtotal plus 50 otherwise |
| CartPage.FreeShippingHint | src/app/cart/page.js:190-193 | the hint shows exactly when the subtotal is under 500, with a positive amount that brings it to 500 |
| CartPage.HintAndShippingAt500 | src/app/cart/page.js:56-59 | at a subtotal of exactly 500 shipping is charged and yet no hint shows |
| CartPage.Page.constructor | src/app/cart/page.js:19-23 | the page starts with the stored cart |
| CartPage.Page.RemoveItem | src/app/cart/page.js:37-41 | the cart becomes the list without that line, and the stored cart equals it |
| CartPage.Page.UpdateQuantity | src/app/cart/page.js:25-35 | a quantity of 0 or less behaves exactly as removing the line; otherwise only that line's quantity changes; the stored cart equals the new cart |
| ProductCard.PriceFor | src/components/ProductCard.jsx:12-14 | the `price_in_<lowercased currency>` field when present and non-zero, otherwise `price_in_usd` |
| ProductCard.PriceIgnoresCase | src/components/ProductCard.jsx:13 | the currency code's letter case does not change the price |
| ProductCard.FindId | src/components/ProductCard.jsx:29 | the first cart line with the product's id, or nothing exactly when none has it |
| ProductCard.NewLine | src/components/ProductCard.jsx:34-41 | a new line has quantity 1, the selected price, the first image and the first size |
| ProductCard.AddedToCart | src/components/ProductCard.jsx:28-42 | with a line for the product, its first such line gains exactly one unit and every other line, including later lines with the same id, is unchanged; without one, exactly the new line is appended |
| ProductCard.AddOneUnit | src/components/ProductCard.jsx:29-42 | either way the cart's unit count rises by exactly 1 |
| ProductCard.AddTouchesOnlyItsProduct | src/components/ProductCard.jsx:29-42 | length rises by at most 1, lines of other products are untouched, the product has a line afterwards, and a line is appended only when the product had none |
| ProductCard.AddTwiceKeepsOneLine | src/components/ProductCard.jsx:29-42 | adding twice appends at most one line and adds two units |
| ProductCard.AddToCart | src/components/ProductCard.jsx:24-51 | the stored cart becomes the updated cart, with one more unit |
| ProductCard.StockBadge | src/components/ProductCard.jsx:95-104 | "Only N left" exactly for stock 1 to 5, "Out of Stock" exactly for stock 0 |
| ProductCard.DisabledIffOutOfStock | src/components/ProductCard.jsx:95-104 | the button is disabled exactly when "Out of Stock" shows; a negative stock shows no badge and leaves the button enabled |
| ProductsPage.AfterFetch | src/app/products/page.js:16-36 | loading always ends; the list is the received array, or empty after any failure or a non-array body |
| ProductsPage.Filtered | src/app/products/page.js:39-42 | a product is kept exactly when its lowercased title or description contains the lowercased term; never more than the input |
| ProductsPage.FilteredAppend | src/app/products/page.js:39-42 | the filter distributes over concatenation, so it preserves catalog order |
| ProductsPage.EmptySearchKeepsAll | src/app/products/page.js:39-42 | an empty search term keeps every product in order |
| ProductsPage.SearchIgnoresTermCase | src/app/products/page.js:39-42 | the term's letter case does not matter |
| ProductsPage.Insert | src/app/products/page.js:44-54 | inserting into a sorted list keeps it sorted and adds exactly the element |
| ProductsPage.SortByKey | src/app/products/page.js:44-54 | the sort returns a sorted permutation of its input |
| ProductsPage.Sorted | src/app/products/page.js:44-54 | the chosen order's comparator holds between every earlier and later product, and the result is a permutation |
| ProductsPage.PriceOrders | src/app/products/page.js:46-49 | `price-low` is ascending and `price-high` descending by `price_in_usd` |
| ProductsPage.Shown | src/app/products/page.js:39-54 | the grid shows the filtered products, as a permutation, in the chosen order's comparator order |
| ProductsPage.ShownCount | src/app/products/page.js:39-54 | the shown count is at most the total, and exactly the matching products are shown |
| AddProductPage.RemoveAll | src/app/admin/products/add/page.js:39 | the filter removes every copy of the size and keeps every other size |
| AddProductPage.RemoveAllAppend | src/app/admin/products/add/page.js:39 | the filter distributes over concatenation, so the kept sizes stay in their order |
| AddProductPage.Toggle | src/app/admin/products/add/page.js:35-42 | membership of the toggled size flips; membership of every other size is unchanged; an unselected size is appended at the end of the unchanged list |
| AddProductPage.ToggleKeepsDistinct | src/app/admin/products/add/page.js:35-42 | toggling never selects a size twice |
| AddProductPage.ToggleTwiceRestores | src/app/admin/products/add/page.js:35-42 | toggling an absent size twice restores the list exactly |
| AddProductPage.RefusalText | src/app/admin/products/add/page.js:102-104 | the server's message when present and non-empty, and "Failed to create product" in every other case |
| AddProductPage.Form.constructor | src/app/admin/products/add/page.js:8-22 | empty text fields, no sizes, the four default countries, no media, not loading, no error |
| AddProductPage.Form.HandleChange | src/app/admin/products/add/page.js:27-33 | only the named text field changes |
| AddProductPage.Form.HandleSizeChange | src/app/admin/products/add/page.js:35-42 | only the sizes change, to the toggled list, and they stay distinct offered sizes |
| AddProductPage.Form.HandleFileUpload | src/app/admin/products/add/page.js:44-68 | an uploaded url is appended to the images for kind `image` and to the videos otherwise; a failure changes nothing |
| AddProductPage.Form.HandleSubmit | src/app/admin/products/add/page.js:70-110 | with no sizes nothing is sent and the error says to select a size; otherwise success goes to the dashboard and failures set their message; loading ends false |
| GeoContext.CountryKey | src/components/GeoContext.js:77-78 | the lookup key is the reported country code, or "undefined" when it is missing |
| GeoContext.InitialState | src/components/GeoContext.js:88 | the reported region when truthy, otherwise the country's first state |
| GeoContext.Provider.constructor | src/components/GeoContext.js:16-25 | null country, code and state; USD and `$`; no states; loading and not prompted |
| GeoContext.Provider.SetDefaultLocation | src/components/GeoContext.js:101-112 | United States, `US`, USD, `$`, no states, resolved, with the state kept |
| GeoContext.Provider.UpdateLocationFromData | src/components/GeoContext.js:72-99 | a known code copies the entry's name, currency, symbol and states, sets the state and resolves; anything else gives exactly the default location, with the state kept |
| GeoContext.Provider.UpdateState | src/components/GeoContext.js:114-119 | only the state changes, and a resolved location stays resolved |
| GeoContext.StateFromCountry | src/components/GeoContext.js:88 | for a country with states and no region, the starting state is one of the country's states |

## Left out

- Token signing and verification (JSON Web Tokens, RFC 7519) and password hashing are foreign
  library code. They are function parameters, and `src/lib/auth.js` is not part of this model.
  The only thing relied on is that a failed verification is `None`.
- Reading and writing the JSON files, and `JSON.parse`/`JSON.stringify`: the file contents are
  the `Store` fields. Concurrent requests racing on the same file are not modelled; the model is
  sequential.
- Numbers are unbounded integers; JavaScript's floating-point prices are not modelled.
- Price conversion (`parseFloat`, `Math.round(usd * rate)`) is the uninterpreted `derive`
  parameter of `AdminProductsRoute.BuildProduct`. The add-product form's request payload, which
  is built the same way, is not modelled beyond the submit guard.
- `Intl.NumberFormat` price formatting is left out, because it is locale-dependent.
- ProductsPage.Sorted: `localeCompare` is modelled as a title rank function (`collate`), and the
  stability of `Array.prototype.sort` for equal keys is not stated.
- Text.Lower: ASCII lower-casing only; Unicode case mapping is not modelled.
- CartPage.Page.UpdateQuantity: requires a valid line index for a positive quantity. The source's
  TypeError for an out-of-range index (`updatedCart[index].quantity`) is not modelled; the page
  only calls it from the buttons of an existing line.
- AddProductPage.RefusalText: the refusal's `message` is a string or missing. A truthy
  non-string `message` in the error body (a number, an object), which the source would display,
  is not modelled.
- GeoContext.CountryKey: a missing `country_code` looks up the key "undefined"; a JSON `null` one,
  which would look up "null", is not distinguished, because the location data's code is an
  `Option<string>`.
- Next.js plumbing is not modelled:
  - the middleware's `config.matcher`;
  - `request.cookies` (the cookie is an `Option<string>`);
  - `NextResponse`;
  - the upload's `arrayBuffer`, `mkdirSync` and `writeFile`. A write failure's 500 is not
    modelled.
- The upload route's `checkAdminAuth` is a line-for-line copy of the admin products route's
  one, so both routes use `AdminProductsRoute.CheckAdminAuth`.
- Request bodies that parse to something other than an object are not modelled. A body is a
  record or unreadable.
- Errors thrown by the store inside the handlers' `try` blocks (500 responses) are not
  modelled. Nor is the GET products 500 after a read failure.
- Browser and network effects are not modelled:
  - `fetch` to the location service and `navigator.geolocation`;
  - the `cartUpdated` event, `alert` and router navigation other than the returned target.
- `localStorage` is the `Catalog.CartStorage` object.
- CartPage.Page.UpdateQuantity: `[...cart]` is a shallow copy, so the source also changes the
  line object shared with the previous state. The model's lines are values, so this aliasing
  is not captured.
- GeoContext.Provider.UpdateLocationFromData: a country entry is a typed record with a `states`
  list. A malformed entry, whose `states[0]` would throw and fall back to the default, is not
  modelled.
- These files are out of scope:
  - the logout, countries and public product routes (constant responses or pass-throughs);
  - `Header.jsx` (its count is the same `Catalog.TotalQuantity`);
  - `GeoPrompt.jsx` and `AdminOnly.jsx`;
  - the home, about and layout pages.

=== FILE: add_product_page.dfy ===
/**
 * The admin "add product" form (src/app/admin/products/add/page.js): its
 * state, the size toggles, media uploads and the submit guard.
 */
module AddProductPage {
  import opened Wrappers

  /** The form's text inputs, each initially empty. */
  const TextFields: set<string> :=
    {"title", "description", "price_in_usd", "price_in_inr", "price_in_gbp", "price_in_cad", "stock"}

  /** The size buttons. */
  const AvailableSizes: seq<string> := ["36", "38", "40", "42", "44", "46", "48"]

  const DefaultCountries: seq<string> := ["IN", "UK", "CA", "US"]

  const NoSizeError := "Please select at least one size"
  const FailedError := "Failed to create product"
  const NetworkError := "An error occurred. Please try again."
  const Dashboard := "/admin/dashboard"

  /** `formData`: the text inputs, the selected sizes and the target countries. */
  datatype FormData = FormData(text: map<string, string>, sizes: seq<string>, countryAvailability: seq<string>)

  /** `sizes.filter(s => s !== size)`. */
  function RemoveAll(sizes: seq<string>, size: string): (r: seq<string>)
    ensures size !in r
    ensures forall t :: t != size ==> (t in r <==> t in sizes)
    ensures |r| <= |sizes|
    decreases |sizes|
  {
    if sizes == [] then []
    else
      var rest := RemoveAll(sizes[1..], size);
      assert forall t :: t in sizes <==> t == sizes[0] || t in sizes[1..];
      if sizes[0] == size then rest else [sizes[0]] + rest
  }

  /** `handleSizeChange`: drops every copy of a selected size, appends an unselected one. */
  function Toggle(sizes: seq<string>, size: string): (r: seq<string>)
    ensures size in r <==> size !in sizes
    ensures forall t :: t != size ==> (t in r <==> t in sizes)
    ensures size !in sizes ==> r == sizes + [size]
  {
    if size in sizes then RemoveAll(sizes, size) else sizes + [size]
  }

  predicate NoDuplicates(s: seq<string>) {
    forall i, j :: 0 <= i < j < |s| ==> s[i] != s[j]
  }

  lemma {:induction false} RemoveAllAbsent(sizes: seq<string>, size: string)
    requires size !in sizes
    ensures RemoveAll(sizes, size) == sizes
    decreases |sizes|
  {
    if sizes != [] {
      RemoveAllAbsent(sizes[1..], size);
    }
  }

  lemma {:induction false} RemoveAllKeepsDistinct(sizes: seq<string>, size: string)
    requires NoDuplicates(sizes)
    ensures NoDuplicates(RemoveAll(sizes, size))
    decreases |sizes|
  {
    if sizes != [] {
      assert NoDuplicates(sizes[1..]);
      RemoveAllKeepsDistinct(sizes[1..], size);
      var rest := RemoveAll(sizes[1..], size);
      assert sizes[0] !in sizes[1..];
      assert sizes[0] !in rest;
    }
  }

  /** The toggles never select a size twice. */
  lemma ToggleKeepsDistinct(sizes: seq<string>, size: string)
    requires NoDuplicates(sizes)
    ensures NoDuplicates(Toggle(sizes, size))
  {
    if size in sizes {
      RemoveAllKeepsDistinct(sizes, size);
    }
  }

  /** Clicking an unselected size twice restores the selection exactly, order included. */
  lemma {:induction false} ToggleTwiceRestores(sizes: seq<string>, size: string)
    requires size !in sizes
    ensures Toggle(Toggle(sizes, size), size) == sizes
  {
    RemoveAllAbsent(sizes, size);
    RemoveAllAppend(sizes, [size], size);
    assert RemoveAll([size], size) == [];
  }

  /** The filter distributes over concatenation, so the kept sizes stay in their order. */
  lemma {:induction false} RemoveAllAppend(a: seq<string>, b: seq<string>, size: string)
    ensures RemoveAll(a + b, size) == RemoveAll(a, size) + RemoveAll(b, size)
    decreases |a|
  {
    if a == [] {
      assert a + b == b;
    } else {
      assert (a + b)[1..] == a[1..] + b;
      RemoveAllAppend(a[1..], b, size);
    }
  }

  /** How a media upload's request ended. */
  datatype UploadResult = Uploaded(url: string) | UploadFailed

  /** How the create request ended: `response.ok`, an error body with its `message`, or a thrown error. */
  datatype SubmitResult = Created | Refused(message: Option<string>) | Threw

  /** The error text for a refused request: `data.message || 'Failed to create product'`. */
  function RefusalText(message: Option<string>): (text: string)
    ensures text != ""
    ensures message.Some? && message.value != "" ==> text == message.value
    ensures !(message.Some? && message.value != "") ==> text == FailedError
  {
    if message.Some? && message.value != "" then message.value else FailedError
  }

  class Form {
    var formData: FormData
    var images: seq<string>
    var videos: seq<string>
    var loading: bool
    var error: string

    /** What the form's controls keep true: only offered sizes, none twice, every text input present. */
    predicate Valid()
      reads this
    {
      NoDuplicates(formData.sizes)
      && (forall s :: s in formData.sizes ==> s in AvailableSizes)
      && formData.text.Keys == TextFields
    }

    constructor ()
      ensures Valid()
      ensures formData == FormData(map f | f in TextFields :: "", [], DefaultCountries)
      ensures images == [] && videos == [] && !loading && error == ""
    {
      formData := FormData(map f | f in TextFields :: "", [], DefaultCountries);
      images := [];
      videos := [];
      loading := false;
      error := "";
    }

    /** `handleChange` for the input named `name`. */
    method HandleChange(name: string, value: string)
      requires Valid() && name in TextFields
      modifies this
      ensures Valid()
      ensures formData == old(formData).(text := old(formData).text[name := value])
      ensures images == old(images) && videos == old(videos) && loading == old(loading) && error == old(error)
    {
      formData := formData.(text := formData.text[name := value]);
    }

    /** `handleSizeChange` for one of the size buttons. */
    method HandleSizeChange(size: string)
      requires Valid() && size in AvailableSizes
      modifies this
      ensures Valid()
      ensures formData == old(formData).(sizes := Toggle(old(formData).sizes, size))
      ensures images == old(images) && videos == old(videos) && loading == old(loading) && error == old(error)
    {
      ToggleKeepsDistinct(formData.sizes, size);
      formData := formData.(sizes := Toggle(formData.sizes, size));
    }

    /** `handleFileUpload(file, kind)`: an uploaded file's url joins the images for 'image', the videos otherwise. */
    method HandleFileUpload(result: UploadResult, kind: string)
      requires Valid()
      modifies this
      ensures Valid()
      ensures result.Uploaded? && kind == "image" ==> images == old(images) + [result.url] && videos == old(videos)
      ensures result.Uploaded? && kind != "image" ==> videos == old(videos) + [result.url] && images == old(images)
      ensures result.UploadFailed? ==> images == old(images) && videos == old(videos)
      ensures formData == old(formData) && loading == old(loading) && error == old(error)
    {
      if result.Uploaded? {
        if kind == "image" {
          images := images + [result.url];
        } else {
          videos := videos + [result.url];
        }
      }
    }

    /**
     * `handleSubmit`: without a size nothing is sent and the form says so;
     * otherwise `response` is how the create request ended. `navigate` is the
     * page the router moves to.
     */
    method HandleSubmit(response: SubmitResult) returns (sent: bool, navigate: Option<string>)
      requires Valid()
      modifies this
      ensures Valid()
      ensures sent <==> |old(formData).sizes| > 0
      ensures !sent ==> error == NoSizeError && navigate.None?
      ensures sent && response.Created? ==> error == "" && navigate == Some(Dashboard)
      ensures sent && response.Refused? ==> error == RefusalText(response.message) && navigate.None?
      ensures sent && response.Threw? ==> error == NetworkError && navigate.None?
      ensures !loading
      ensures formData == old(formData) && images == old(images) && videos == old(videos)
    {
      loading := true;
      error := "";
      if |formData.sizes| == 0 {
        error := NoSizeError;
        loading := false;
        return false, None;
      }
      sent := true;
      match response {
        case Created =>
          navigate := Some(Dashboard);
        case Refused(message) =>
          error := RefusalText(message);
          navigate := None;
        case Threw =>
          error := NetworkError;
          navigate := None;
      }
      loading := false;
    }
  }
}

=== FILE: admin_products.dfy ===
/**
 * `GET` and `POST /api/admin/products` (src/app/api/admin/products/route.js):
 * both answer 403 unless the `Cookie` header carries an admin token; POST then
 * validates the payload, fills in defaults and appends the product.
 */
module AdminProductsRoute {
  import opened Wrappers
  import opened Json
  import opened Http
  import opened Cookies
  import Gate
  import Data

  /**
   * `checkAdminAuth(request)`: the decoded claims when the header carries an
   * `auth-token` that verifies with role 'admin', and nothing otherwise.
   */
  function CheckAdminAuth(header: Option<string>, verify: string -> Option<Record>): (claims: Option<Record>)
    ensures header.None? || header == Some("") ==> claims.None?
    ensures claims.Some? <==> AuthToken(header).Some? && Gate.IsAdmin(verify(AuthToken(header).value))
    ensures claims.Some? ==> claims == verify(AuthToken(header).value)
  {
    if header.None? || header.value == "" then None
    else
      match Lookup(ParseCookies(header.value), "auth-token")
      case None => None
      case Some(token) =>
        var decoded := verify(token);
        if !Gate.IsAdmin(decoded) then None else decoded
  }

  const Forbidden: Response := Error(403, "Admin access required")

  /** `GET(request)`: the whole products file, for admins only. */
  function List(header: Option<string>, verify: string -> Option<Record>, products: seq<Record>): (r: Response)
    ensures CheckAdminAuth(header, verify).None? ==> r == Forbidden
    ensures CheckAdminAuth(header, verify).Some? ==> r == Response(200, Arr(seq(|products|, i requires 0 <= i < |products| => Obj(products[i]))))
  {
    if CheckAdminAuth(header, verify).None? then Forbidden
    else Response(200, Arr(seq(|products|, i requires 0 <= i < |products| => Obj(products[i]))))
  }

  /** The required fields: truthy title, description and price in USD, and a non-empty `sizes` array. */
  predicate ValidPayload(body: Record) {
    && Truthy(Json.Get(body, "title"))
    && Truthy(Json.Get(body, "description"))
    && Truthy(Json.Get(body, "price_in_usd"))
    && "sizes" in body && body["sizes"].Arr? && |body["sizes"].items| > 0
  }

  /** The eleven fields the handler destructures and persists. */
  const ProductFields: set<string> := {"title", "description", "price_in_inr", "price_in_usd", "price_in_gbp",
                                        "price_in_cad", "images", "videos", "sizes", "stock", "countryAvailability"}

  const DefaultCountries: Value := Arr([Str("IN"), Str("UK"), Str("CA"), Str("US")])

  /**
   * The record handed to `addProduct`. `derive(field, usd)` stands for the
   * rounded floating-point conversion of the USD price into that field's currency.
   */
  function BuildProduct(body: Record, derive: (string, Value) -> Value): (p: Record)
    requires ValidPayload(body)
    ensures p.Keys == ProductFields
    ensures forall k :: k in {"title", "description", "price_in_usd", "sizes"} ==> p[k] == body[k]
    // a truthy supplied price is kept as is; only falsy ones are derived from the USD price
    ensures forall k :: k in {"price_in_inr", "price_in_gbp", "price_in_cad"} ==>
      p[k] == if Truthy(Json.Get(body, k)) then body[k] else derive(k, body["price_in_usd"])
    ensures forall k :: k in {"images", "videos"} ==> p[k] == if Truthy(Json.Get(body, k)) then body[k] else Arr([])
    ensures p["stock"] == if Truthy(Json.Get(body, "stock")) then body["stock"] else Num(0)
    ensures p["countryAvailability"] ==
      if Truthy(Json.Get(body, "countryAvailability")) then body["countryAvailability"] else DefaultCountries
  {
    var usd := body["price_in_usd"];
    map[
      "title" := body["title"],
      "description" := body["description"],
      "price_in_inr" := Or(Json.Get(body, "price_in_inr"), derive("price_in_inr", usd)),
      "price_in_usd" := usd,
      "price_in_gbp" := Or(Json.Get(body, "price_in_gbp"), derive("price_in_gbp", usd)),
      "price_in_cad" := Or(Json.Get(body, "price_in_cad"), derive("price_in_cad", usd)),
      "images" := Or(Json.Get(body, "images"), Arr([])),
      "videos" := Or(Json.Get(body, "videos"), Arr([])),
      "sizes" := body["sizes"],
      "stock" := Or(Json.Get(body, "stock"), Num(0)),
      "countryAvailability" := Or(Json.Get(body, "countryAvailability"), DefaultCountries)
    ]
  }

  /** POST's decision: a rejection, or the product to append. */
  datatype Plan = Reject(response: Response) | Insert(product: Record)

  function PostPlan(header: Option<string>, verify: string -> Option<Record>, body: Option<Record>,
                    derive: (string, Value) -> Value): (p: Plan)
    // the admin check comes first, before the body is read
    ensures CheckAdminAuth(header, verify).None? ==> p == Reject(Forbidden)
    ensures CheckAdminAuth(header, verify).Some? && body.None? ==> p == Reject(Error(500, "Failed to create product"))
    ensures (CheckAdminAuth(header, verify).Some? && body.Some? && !ValidPayload(body.value))
            ==> p == Reject(Error(400, "Missing required fields"))
    ensures p.Insert? <==> CheckAdminAuth(header, verify).Some? && body.Some? && ValidPayload(body.value)
    ensures p.Insert? ==> p.product == BuildProduct(body.value, derive)
    // this handler never answers 401
    ensures p.Reject? ==> p.response.status in {400, 403, 500}
  {
    if CheckAdminAuth(header, verify).None? then Reject(Forbidden)
    else if body.None? then Reject(Error(500, "Failed to create product"))
    else if !ValidPayload(body.value) then Reject(Error(400, "Missing required fields"))
    else Insert(BuildProduct(body.value, derive))
  }

  /** `POST(request)` against the store: `now` is `Date.now()`, `createdAt` the ISO clock reading. */
  method Post(store: Data.Store, header: Option<string>, verify: string -> Option<Record>, body: Option<Record>,
              derive: (string, Value) -> Value, now: nat, createdAt: string) returns (response: Response)
    modifies store
    ensures store.users == old(store.users)
    ensures match PostPlan(header, verify, body, derive)
            case Reject(r) => response == r && store.products == old(store.products)
            case Insert(p) =>
              var added := Data.NewProduct(p, now, createdAt);
              response == Response(201, Obj(added)) && store.products == old(store.products) + [added]
  {
    var plan := PostPlan(header, verify, body, derive);
    match plan
    case Reject(r) =>
      response := r;
    case Insert(p) =>
      var added := store.AddProduct(p, now, createdAt);
      response := Response(201, Obj(added));
  }

  /** Fields of the body outside the eleven destructured ones are not persisted. */
  lemma ExtraFieldsDropped(body: Record, derive: (string, Value) -> Value, now: nat, createdAt: string, k: string)
    requires ValidPayload(body) && k in body && k !in ProductFields && k != "id" && k != "createdAt"
    ensures k !in Data.NewProduct(BuildProduct(body, derive), now, createdAt)
  {
  }
}

=== FILE: cart.dfy ===
/**
 * The cart page (src/app/cart/page.js): quantity updates and removals, each
 * written back to `localStorage.cart`, and the subtotal, shipping and total.
 */
module CartPage {
  import opened Catalog

  /** `cart.filter((_, i) => i !== index)`: every line but the one at `index`, in order. */
  function RemoveAt(cart: seq<CartItem>, index: int): (r: seq<CartItem>)
    ensures 0 <= index < |cart| ==> r == cart[..index] + cart[index + 1..]
    ensures !(0 <= index < |cart|) ==> r == cart
    decreases |cart|
  {
    if cart == [] then []
    else
      var rest := RemoveAt(cart[1..], index - 1);
      if index == 0 then rest
      else
        assert 0 < index < |cart| ==> cart[1..][..index - 1] == cart[1..index] && cart[1..][index..] == cart[index + 1..];
        assert 0 < index < |cart| ==> [cart[0]] + cart[1..index] == cart[..index];
        [cart[0]] + rest
  }

  /** `updatedCart[index].quantity = newQuantity` on a copy of the cart. */
  function WithQuantity(cart: seq<CartItem>, index: nat, quantity: int): (r: seq<CartItem>)
    requires index < |cart|
    ensures |r| == |cart|
    ensures r[index] == cart[index].(quantity := quantity)
    ensures forall i :: 0 <= i < |cart| && i != index ==> r[i] == cart[i]
  {
    cart[index := cart[index].(quantity := quantity)]
  }

  /** `cart.reduce((sum, item) => sum + item.price * item.quantity, 0)`: a left fold. */
  function Subtotal(cart: seq<CartItem>): int
    decreases |cart|
  {
    if cart == [] then 0
    else Subtotal(cart[..|cart| - 1]) + cart[|cart| - 1].price * cart[|cart| - 1].quantity
  }

  /** Prices and quantities that are never negative give a subtotal that is not negative, and no smaller than any one line's amount. */
  lemma {:induction false} SubtotalBounds(cart: seq<CartItem>)
    requires forall i :: 0 <= i < |cart| ==> cart[i].price >= 0 && cart[i].quantity >= 0
    ensures Subtotal(cart) >= 0
    ensures forall i :: 0 <= i < |cart| ==> Subtotal(cart) >= cart[i].price * cart[i].quantity
    decreases |cart|
  {
    if cart != [] {
      var init := cart[..|cart| - 1];
      assert forall i :: 0 <= i < |init| ==> init[i] == cart[i];
      SubtotalBounds(init);
      var last := cart[|cart| - 1];
      assert last.price * last.quantity >= 0;
    }
  }

  /** The fold can equally be read from the front. */
  lemma {:induction false} SubtotalCons(cart: seq<CartItem>)
    requires cart != []
    ensures Subtotal(cart) == cart[0].price * cart[0].quantity + Subtotal(cart[1..])
    decreases |cart|
  {
    if |cart| > 1 {
      SubtotalCons(cart[..|cart| - 1]);
      assert cart[..|cart| - 1][1..] == cart[1..][..|cart| - 2];
    }
  }

  /** Removing a line takes exactly its amount off the subtotal. */
  lemma {:induction false} SubtotalRemoveAt(cart: seq<CartItem>, index: nat)
    requires index < |cart|
    ensures Subtotal(RemoveAt(cart, index)) == Subtotal(cart) - cart[index].price * cart[index].quantity
    decreases |cart|
  {
    SubtotalCons(cart);
    if index > 0 {
      SubtotalRemoveAt(cart[1..], index - 1);
      SubtotalCons([cart[0]] + RemoveAt(cart[1..], index - 1));
      assert ([cart[0]] + RemoveAt(cart[1..], index - 1))[1..] == RemoveAt(cart[1..], index - 1);
    }
  }

  /** Changing one line's quantity changes the subtotal by price times the difference. */
  lemma {:induction false} SubtotalWithQuantity(cart: seq<CartItem>, index: nat, quantity: int)
    requires index < |cart|
    ensures Subtotal(WithQuantity(cart, index, quantity))
            == Subtotal(cart) + cart[index].price * (quantity - cart[index].quantity)
    decreases |cart|
  {
    var after := WithQuantity(cart, index, quantity);
    SubtotalCons(cart);
    SubtotalCons(after);
    if index > 0 {
      assert after[1..] == WithQuantity(cart[1..], index - 1, quantity);
      SubtotalWithQuantity(cart[1..], index - 1, quantity);
    } else {
      assert after[1..] == cart[1..];
    }
  }

  /** Free shipping strictly over 500, 50 otherwise. */
  function Shipping(subtotal: int): (fee: int)
    ensures fee == 0 <==> subtotal > 500
    ensures fee != 0 ==> fee == 50
  {
    if subtotal > 500 then 0 else 50
  }

  function Total(cart: seq<CartItem>): (total: int)
    ensures total == Subtotal(cart) || total == Subtotal(cart) + 50
    ensures total == Subtotal(cart) <==> Subtotal(cart) > 500
  {
    Subtotal(cart) + Shipping(Subtotal(cart))
  }

  /** The free-shipping hint shows when the subtotal is under 500, with the positive amount still missing. */
  function FreeShippingHint(cart: seq<CartItem>): (missing: Wrappers.Option<int>)
    ensures missing.Some? <==> Subtotal(cart) < 500
    ensures missing.Some? ==> missing.value > 0 && Subtotal(cart) + missing.value == 500
  {
    if Subtotal(cart) < 500 then Wrappers.Some(500 - Subtotal(cart)) else Wrappers.None
  }

  /** At a subtotal of exactly 500 shipping is charged, yet no hint is shown. */
  lemma HintAndShippingAt500(cart: seq<CartItem>)
    requires Subtotal(cart) == 500
    ensures FreeShippingHint(cart).None? && Shipping(Subtotal(cart)) == 50
  {
  }

  /** The cart page's state: the rendered cart, and the shared storage it writes to. */
  class Page {
    var cart: seq<CartItem>
    const storage: CartStorage

    constructor (storage: CartStorage)
      ensures this.storage == storage && cart == storage.items
    {
      this.storage := storage;
      cart := storage.items;
    }

    /** `removeItem(index)`. */
    method RemoveItem(index: int)
      modifies this, storage
      ensures cart == RemoveAt(old(cart), index)
      ensures storage.items == cart
    {
      var updated := RemoveAt(cart, index);
      cart := updated;
      storage.items := updated;
    }

    /**
     * `updateQuantity(index, newQuantity)`: a quantity of 0 or less removes the
     * line; otherwise only that line's quantity changes. The source dereferences
     * `updatedCart[index]`, so a positive quantity needs a valid index.
     */
    method UpdateQuantity(index: int, newQuantity: int)
      requires newQuantity > 0 ==> 0 <= index < |cart|
      modifies this, storage
      ensures newQuantity <= 0 ==> cart == RemoveAt(old(cart), index)
      ensures newQuantity > 0 ==> cart == WithQuantity(old(cart), index, newQuantity)
      ensures storage.items == cart
    {
      if newQuantity <= 0 {
        RemoveItem(index);
        return;
      }
      var updated := WithQuantity(cart, index, newQuantity);
      cart := updated;
      storage.items := updated;
    }
  }
}

=== FILE: catalog.dfy ===
/**
 * The client side's view of a product, the cart's line items, and the
 * browser's `localStorage.cart` entry that the product card and the cart page
 * share.
 */
module Catalog {
  import opened Wrappers

  /**
   * A product as the catalog pages read it. `prices` holds the other
   * `price_in_<currency>` fields by field name; a field absent from it is
   * `undefined`.
   */
  datatype Product = Product(id: string, title: string, description: string, priceUsd: int,
                             prices: map<string, int>, images: seq<string>, sizes: seq<string>, stock: int)

  /** `product[field]` for a price field. */
  function PriceField(p: Product, field: string): Option<int> {
    if field == "price_in_usd" then Some(p.priceUsd)
    else if field in p.prices then Some(p.prices[field])
    else None
  }

  /** One cart line, as `addToCart` writes it; `image` and `size` are `undefined` when the product has none. */
  datatype CartItem = CartItem(id: string, title: string, price: int, image: Option<string>,
                               quantity: int, size: Option<string>)

  /** `list[0]`, `undefined` for an empty list. */
  function First(list: seq<string>): (r: Option<string>)
    ensures r.Some? <==> |list| > 0
    ensures r.Some? ==> r.value == list[0]
  {
    if |list| > 0 then Some(list[0]) else None
  }

  /** Total number of units in a cart: the quantity sum. */
  function TotalQuantity(cart: seq<CartItem>): int
    decreases |cart|
  {
    if cart == [] then 0 else cart[0].quantity + TotalQuantity(cart[1..])
  }

  /** Changing one line's quantity by `delta` changes the total by `delta`. */
  lemma {:induction false} TotalQuantityAt(cart: seq<CartItem>, i: nat, q: int)
    requires i < |cart|
    ensures TotalQuantity(cart[i := cart[i].(quantity := q)]) == TotalQuantity(cart) + q - cart[i].quantity
    decreases |cart|
  {
    if i > 0 {
      TotalQuantityAt(cart[1..], i - 1, q);
      assert cart[i := cart[i].(quantity := q)][1..] == cart[1..][i - 1 := cart[i].(quantity := q)];
    }
  }

  lemma {:induction false} TotalQuantityAppend(cart: seq<CartItem>, item: CartItem)
    ensures TotalQuantity(cart + [item]) == TotalQuantity(cart) + item.quantity
    decreases |cart|
  {
    if cart == [] {
      assert cart + [item] == [item];
    } else {
      assert (cart + [item])[1..] == cart[1..] + [item];
      TotalQuantityAppend(cart[1..], item);
    }
  }

  /** `localStorage.getItem('cart')`, parsed. */
  class CartStorage {
    var items: seq<CartItem>

    constructor (items: seq<CartItem>)
      ensures this.items == items
    {
      this.items := items;
    }
  }
}

=== FILE: cookies.dfy ===
/**
 * The hand-written `Cookie` request-header parser that the `me`, admin
 * products and admin upload handlers each carry (a simplified reading of the
 * `Cookie` header of section 5.4 of RFC 6265):
 *
 *   the header is split on "; ", each piece is split on "=", the first part
 *   is the name and the second part (if any) the value, and the pairs are
 *   collected with `Object.fromEntries`, so a later name overwrites an
 *   earlier one.
 */
module Cookies {
  import opened Wrappers
  import opened Text

  /** A parsed `[name, value]` pair; a piece without "=" has value `undefined`. */
  type Entry = (string, Option<string>)

  /** The cookie jar: what `Object.fromEntries` builds. */
  type Jar = map<string, Option<string>>

  /** `Join` of at least two parts starts with the first part and the separator. */
  lemma JoinFirst(parts: seq<string>, sep: string)
    requires |parts| >= 2
    ensures Join(parts, sep) == parts[0] + sep + Join(parts[1..], sep)
  {
  }

  /** `Join` of at least one part starts with its first part. */
  lemma {:induction false} JoinStartsWithFirst(parts: seq<string>, sep: string)
    requires |parts| >= 1
    ensures StartsWith(Join(parts, sep), parts[0])
  {
    if |parts| >= 2 {
      JoinFirst(parts, sep);
      assert (parts[0] + sep + Join(parts[1..], sep))[..|parts[0]|] == parts[0];
    }
  }

  /**
   * `const [name, value] = piece.split('=')`: the name is the text before the
   * first "=", and the value is the text between the first and the second "="
   * (or the end), or `undefined` when the piece has no "=".
   */
  function ParseEntry(piece: string): (e: Entry)
    ensures StartsWith(piece, e.0) && !Contains(e.0, "=")
    ensures e.1.None? <==> !Contains(piece, "=")
    ensures e.1.None? ==> e.0 == piece
    ensures e.1.Some? ==>
      var v, start := e.1.value, |e.0| + 1;
      && start + |v| <= |piece|
      && piece[|e.0|] == '='
      && piece[start..start + |v|] == v
      && !Contains(v, "=")
      && (start + |v| == |piece| || piece[start + |v|] == '=')
  {
    var parts := Split(piece, "=");
    JoinStartsWithFirst(parts, "=");
    if |parts| >= 2 then
      JoinFirst(parts, "=");
      var tail := Join(parts[1..], "=");
      JoinStartsWithFirst(parts[1..], "=");
      assert OccursAt(piece, "=", |parts[0]|) by {
        assert piece[|parts[0]|..|parts[0]| + 1] == "=";
      }
      assert piece[|parts[0]| + 1..] == tail;
      assert |parts| >= 3 ==> |parts[1]| < |tail| && tail[|parts[1]|] == '=' by {
        if |parts| >= 3 {
          JoinFirst(parts[1..], "=");
        }
      }
      (parts[0], Some(parts[1]))
    else
      assert Join(parts, "=") == parts[0];
      (parts[0], None)
  }

  /** `Object.fromEntries(entries)`: later entries overwrite earlier ones. */
  function FromEntries(entries: seq<Entry>): (jar: Jar)
    ensures forall name :: name in jar <==> exists i :: 0 <= i < |entries| && entries[i].0 == name
    decreases |entries|
  {
    if entries == [] then map[]
    else
      var last := entries[|entries| - 1];
      var jar := FromEntries(entries[..|entries| - 1]);
      assert forall i :: 0 <= i < |entries| - 1 ==> entries[..|entries| - 1][i] == entries[i];
      jar[last.0 := last.1]
  }

  /** The value stored under a name is the one of the LAST entry with that name. */
  lemma {:induction false} FromEntriesLastWins(entries: seq<Entry>, i: nat)
    requires i < |entries|
    requires forall j :: i < j < |entries| ==> entries[j].0 != entries[i].0
    ensures entries[i].0 in FromEntries(entries)
    ensures FromEntries(entries)[entries[i].0] == entries[i].1
    decreases |entries|
  {
    if i < |entries| - 1 {
      var init := entries[..|entries| - 1];
      FromEntriesLastWins(init, i);
    }
  }

  /** The whole parser: `Object.fromEntries(header.split('; ').map(...))`. */
  function ParseCookies(header: string): Jar {
    var pieces := Split(header, "; ");
    FromEntries(seq(|pieces|, i requires 0 <= i < |pieces| => ParseEntry(pieces[i])))
  }

  /**
   * `cookies[name]` tested for truthiness: the value when the name is present
   * with a non-empty value, and nothing when it is absent, has no "=" part
   * (`undefined`) or has an empty value.
   */
  function Lookup(jar: Jar, name: string): (token: Option<string>)
    ensures token.Some? <==> name in jar && jar[name].Some? && jar[name].value != ""
    ensures token.Some? ==> jar[name] == token
  {
    if name in jar && jar[name].Some? && jar[name].value != "" then jar[name] else None
  }

  /**
   * The `auth-token` the handlers extract: nothing when the header is
   * missing or empty (falsy), otherwise the parsed jar's `auth-token` entry.
   */
  function AuthToken(header: Option<string>): (token: Option<string>)
    ensures header.None? || header == Some("") ==> token.None?
    ensures token.Some? ==> token.value != ""
  {
    match header
    case None => None
    case Some(h) => if h == "" then None else Lookup(ParseCookies(h), "auth-token")
  }

  // ----- Round trip -----------------------------------------------------------

  /** A name or value the serialiser can carry: no "=" and no "; " inside. */
  predicate CookieSafe(s: string) {
    !Contains(s, "=") && !Contains(s, "; ")
  }

  /** The header a client sends for the given pairs: `n1=v1; n2=v2; ...`. */
  function Serialize(names: seq<string>, values: seq<string>): string
    requires |names| == |values|
  {
    Join(Pieces(names, values), "; ")
  }

  function Pieces(names: seq<string>, values: seq<string>): (pieces: seq<string>)
    requires |names| == |values|
    ensures |pieces| == |names|
    ensures forall i :: 0 <= i < |names| ==> pieces[i] == names[i] + "=" + values[i]
  {
    seq(|names|, i requires 0 <= i < |names| => names[i] + "=" + values[i])
  }

  lemma OccursPair(s: string, j: int)
    ensures OccursAt(s, "; ", j) <==> 0 <= j && j + 1 < |s| && s[j] == ';' && s[j + 1] == ' '
  {
    if 0 <= j && j + 1 < |s| {
      assert s[j..j + 2] == [s[j], s[j + 1]];
    }
  }

  /** `s` without an occurrence of `t`, followed by `t`, first meets `t` at `|s|`, unless an occurrence straddles the seam. */
  lemma {:induction false} FirstAtSeam(s: string, t: string)
    requires !Contains(s, t)
    requires forall j :: 0 <= j < |s| < j + |t| ==> !OccursAt(s + t, t, j)
    ensures IndexOf(s + t, t) == Some(|s|)
  {
    var st := s + t;
    assert st[|s|..|s| + |t|] == t;
    assert OccursAt(st, t, |s|);
    forall j | 0 <= j < |s| && j + |t| <= |s|
      ensures !OccursAt(st, t, j)
    {
      assert !OccursAt(s, t, j);
      assert st[j..j + |t|] == s[j..j + |t|];
    }
    var r := IndexOf(st, t);
    assert r.Some? && r.value <= |s|;
    assert r.value >= |s|;
  }

  /** A piece `name=value` of safe parts contains no "; ". */
  lemma {:induction false} PieceHasNoSeparator(name: string, value: string)
    requires CookieSafe(name) && CookieSafe(value)
    ensures !Contains(name + "=" + value, "; ")
  {
    var p := name + "=" + value;
    forall j | 0 <= j < |p|
      ensures !OccursAt(p, "; ", j)
    {
      OccursPair(p, j);
      if j + 1 < |name| {
        OccursPair(name, j);
        assert p[j] == name[j] && p[j + 1] == name[j + 1];
      } else if j > |name| {
        var k := j - |name| - 1;
        OccursPair(value, k);
        if k + 1 < |value| {
          assert p[j] == value[k] && p[j + 1] == value[k + 1];
        }
      } else {
        assert p[|name|] == '=';
      }
    }
  }

  /** A piece without "; " is followed by its first "; ". */
  lemma {:induction false} PieceThenSeparator(p: string)
    requires !Contains(p, "; ")
    ensures IndexOf(p + "; ", "; ") == Some(|p|)
  {
    forall j | 0 <= j < |p| < j + 2
      ensures !OccursAt(p + "; ", "; ", j)
    {
      OccursPair(p + "; ", j);
      assert (p + "; ")[j + 1] == ';';
    }
    FirstAtSeam(p, "; ");
  }

  /** A safe `name=value` piece parses back to `(name, value)`. */
  lemma {:induction false} ParseEntryOfPiece(name: string, value: string)
    requires CookieSafe(name) && CookieSafe(value)
    ensures ParseEntry(name + "=" + value) == (name, Some(value))
  {
    FirstAtSeam(name, "=");
    SplitJoin([name, value], "=");
    assert Join([name, value], "=") == name + "=" + value by {
      JoinFirst([name, value], "=");
      assert [name, value][1..] == [value];
    }
  }

  /** The header of safe pairs splits on "; " into exactly its `name=value` pieces. */
  lemma {:induction false} SplitSerialized(names: seq<string>, values: seq<string>)
    requires |names| == |values| >= 1
    requires forall i :: 0 <= i < |names| ==> CookieSafe(names[i]) && CookieSafe(values[i])
    ensures Split(Serialize(names, values), "; ") == Pieces(names, values)
  {
    var pieces := Pieces(names, values);
    forall i | 0 <= i < |pieces|
      ensures !Contains(pieces[i], "; ")
      ensures IndexOf(pieces[i] + "; ", "; ") == Some(|pieces[i]|)
    {
      PieceHasNoSeparator(names[i], values[i]);
      PieceThenSeparator(pieces[i]);
    }
    SplitJoin(pieces, "; ");
  }

  /**
   * Round trip: for distinct safe names and safe values, parsing the header
   * `n1=v1; ...; nk=vk` gives back, for each name, its original value.
   */
  lemma {:induction false} ParseSerialized(names: seq<string>, values: seq<string>, k: nat)
    requires |names| == |values| && k < |names|
    requires forall i, j :: 0 <= i < j < |names| ==> names[i] != names[j]
    requires forall i :: 0 <= i < |names| ==> CookieSafe(names[i]) && CookieSafe(values[i])
    ensures names[k] in ParseCookies(Serialize(names, values))
    ensures ParseCookies(Serialize(names, values))[names[k]] == Some(values[k])
  {
    var pieces := Pieces(names, values);
    SplitSerialized(names, values);
    var entries := seq(|pieces|, i requires 0 <= i < |pieces| => ParseEntry(pieces[i]));
    assert ParseCookies(Serialize(names, values)) == FromEntries(entries);
    forall i | 0 <= i < |entries|
      ensures entries[i] == (names[i], Some(values[i]))
    {
      ParseEntryOfPiece(names[i], values[i]);
    }
    FromEntriesLastWins(entries, k);
  }

  /** The names a serialized header of safe pairs parses to are exactly the serialized names. */
  lemma {:induction false} ParsedNames(names: seq<string>, values: seq<string>)
    requires |names| == |values| >= 1
    requires forall i :: 0 <= i < |names| ==> CookieSafe(names[i]) && CookieSafe(values[i])
    ensures forall n :: n in ParseCookies(Serialize(names, values)) <==> n in names
  {
    var pieces := Pieces(names, values);
    SplitSerialized(names, values);
    var entries := seq(|pieces|, i requires 0 <= i < |pieces| => ParseEntry(pieces[i]));
    assert ParseCookies(Serialize(names, values)) == FromEntries(entries);
    forall i | 0 <= i < |entries|
      ensures entries[i].0 == names[i]
    {
      ParseEntryOfPiece(names[i], values[i]);
    }
    var jar := FromEntries(entries);
    forall n
      ensures n in jar <==> n in names
    {
      if n in names {
        var i :| 0 <= i < |names| && names[i] == n;
        assert entries[i].0 == n;
      }
    }
  }

  /**
   * What the handlers extract from a header of distinct safe pairs: the
   * `auth-token` pair's value when it is non-empty, and nothing when there is
   * no such pair or its value is empty.
   */
  lemma {:induction false} AuthTokenOfSerialized(names: seq<string>, values: seq<string>)
    requires |names| == |values|
    requires forall i, j :: 0 <= i < j < |names| ==> names[i] != names[j]
    requires forall i :: 0 <= i < |names| ==> CookieSafe(names[i]) && CookieSafe(values[i])
    ensures "auth-token" !in names ==> AuthToken(Some(Serialize(names, values))).None?
    ensures forall k :: 0 <= k < |names| && names[k] == "auth-token" ==>
              AuthToken(Some(Serialize(names, values))) == if values[k] != "" then Some(values[k]) else None
  {
    var header := Serialize(names, values);
    if |names| >= 1 {
      ParsedNames(names, values);
      var pieces := Pieces(names, values);
      JoinStartsWithFirst(pieces, "; ");
      assert |header| >= |pieces[0]| >= 1;
      forall k | 0 <= k < |names| && names[k] == "auth-token"
        ensures AuthToken(Some(header)) == if values[k] != "" then Some(values[k]) else None
      {
        ParseSerialized(names, values, k);
      }
    }
  }
}

=== FILE: data.dfy ===
/**
 * The file-backed store (src/lib/data.js). Each JSON file ("products.json",
 * "users.json") is read in full, changed and rewritten in full on every call;
 * here each file is a `seq<Record>` field of `Store`, so a field assignment is
 * the whole-file rewrite and the next read sees exactly what was written.
 */
module Data {
  import opened Wrappers
  import opened Text
  import opened Json

  /** `records[i][key] === v`. */
  predicate Matches(record: Record, key: string, v: Option<Value>) {
    StrictEq(Get(record, key), v)
  }

  /** `records.findIndex(r => r[key] === v)`, with `None` for -1. */
  function FindIndex(records: seq<Record>, key: string, v: Option<Value>): (r: Option<nat>)
    ensures r.Some? ==> r.value < |records| && Matches(records[r.value], key, v)
    ensures r.Some? ==> forall j :: 0 <= j < r.value ==> !Matches(records[j], key, v)
    ensures r.None? <==> forall j :: 0 <= j < |records| ==> !Matches(records[j], key, v)
    decreases |records|
  {
    if records == [] then None
    else if Matches(records[0], key, v) then Some(0)
    else
      match FindIndex(records[1..], key, v)
      case None => None
      case Some(i) => Some(i + 1)
  }

  /** `records.find(r => r[key] === v)`: the first record whose field equals the key. */
  function Find(records: seq<Record>, key: string, v: Option<Value>): (r: Option<Record>)
    ensures r.None? <==> forall j :: 0 <= j < |records| ==> !Matches(records[j], key, v)
    ensures r.Some? ==> exists i :: 0 <= i < |records| && records[i] == r.value && Matches(records[i], key, v)
                                    && forall j :: 0 <= j < i ==> !Matches(records[j], key, v)
  {
    match FindIndex(records, key, v)
    case None => None
    case Some(i) => Some(records[i])
  }

  /** `records.filter(r => r.id !== id)`. */
  function RemoveMatching(records: seq<Record>, key: string, v: Option<Value>): (kept: seq<Record>)
    ensures |kept| <= |records|
    ensures forall r :: r in kept <==> r in records && !Matches(r, key, v)
    decreases |records|
  {
    if records == [] then []
    else
      var rest := RemoveMatching(records[1..], key, v);
      if Matches(records[0], key, v) then rest else [records[0]] + rest
  }

  /** Filtering distributes over concatenation, so the kept records stay in their order. */
  lemma {:induction false} RemoveMatchingAppend(a: seq<Record>, b: seq<Record>, key: string, v: Option<Value>)
    ensures RemoveMatching(a + b, key, v) == RemoveMatching(a, key, v) + RemoveMatching(b, key, v)
    decreases |a|
  {
    if a != [] {
      assert (a + b)[1..] == a[1..] + b;
      RemoveMatchingAppend(a[1..], b, key, v);
    } else {
      assert a + b == b;
    }
  }

  /** Filtering out a key nobody has changes nothing. */
  lemma {:induction false} RemoveMatchingNone(records: seq<Record>, key: string, v: Option<Value>)
    requires forall j :: 0 <= j < |records| ==> !Matches(records[j], key, v)
    ensures RemoveMatching(records, key, v) == records
    decreases |records|
  {
    if records != [] {
      RemoveMatchingNone(records[1..], key, v);
    }
  }

  /** The record `addProduct` appends: `{ ...product, id: 'suit-' + Date.now(), createdAt }`. */
  function NewProduct(product: Record, now: nat, createdAt: string): (p: Record)
    ensures p.Keys == product.Keys + {"id", "createdAt"}
    ensures p["id"] == Str("suit-" + Decimal(now)) && p["createdAt"] == Str(createdAt)
    ensures forall k :: k in product && k != "id" && k != "createdAt" ==> p[k] == product[k]
  {
    Merge(product, map["id" := Str("suit-" + Decimal(now)), "createdAt" := Str(createdAt)])
  }

  /** A product's id determines the timestamp it was added at: different timestamps give different ids. */
  lemma IdDeterminesTimestamp(p1: Record, now1: nat, c1: string, p2: Record, now2: nat, c2: string)
    ensures NewProduct(p1, now1, c1)["id"] == NewProduct(p2, now2, c2)["id"] ==> now1 == now2
  {
    assert ("suit-" + Decimal(now1))[5..] == Decimal(now1);
    assert ("suit-" + Decimal(now2))[5..] == Decimal(now2);
  }

  /** The record `addUser` appends: `{ ...user, createdAt }`. */
  function NewUser(user: Record, createdAt: string): (u: Record)
    ensures u.Keys == user.Keys + {"createdAt"}
    ensures u["createdAt"] == Str(createdAt)
    ensures forall k :: k in user && k != "createdAt" ==> u[k] == user[k]
  {
    Merge(user, map["createdAt" := Str(createdAt)])
  }

  /** The products file after `updateProduct(id, updates)`, with the merged record, or nothing. */
  function Updated(products: seq<Record>, id: Option<Value>, updates: Record): (r: Option<(seq<Record>, Record)>)
    ensures r.None? <==> forall j :: 0 <= j < |products| ==> !Matches(products[j], "id", id)
    ensures r.Some? ==>
      var (after, merged) := r.value;
      exists i :: 0 <= i < |products| && Matches(products[i], "id", id)
                 && (forall j :: 0 <= j < i ==> !Matches(products[j], "id", id))
                 && merged == Merge(products[i], updates)
                 && after == products[i := merged]
  {
    match FindIndex(products, "id", id)
    case None => None
    case Some(i) =>
      var merged := Merge(products[i], updates);
      Some((products[i := merged], merged))
  }

  class Store {
    /** The contents of products.json. */
    var products: seq<Record>
    /** The contents of users.json. */
    var users: seq<Record>

    constructor (products: seq<Record>, users: seq<Record>)
      ensures this.products == products && this.users == users
    {
      this.products := products;
      this.users := users;
    }

    /** `getProductById(id)`. */
    function GetProductById(id: Option<Value>): (r: Option<Record>)
      reads this
      ensures r.None? <==> forall j :: 0 <= j < |products| ==> !Matches(products[j], "id", id)
      ensures r.Some? ==> exists i :: 0 <= i < |products| && products[i] == r.value && Matches(products[i], "id", id)
                                      && forall j :: 0 <= j < i ==> !Matches(products[j], "id", id)
    {
      Find(products, "id", id)
    }

    /** `getUserByEmail(email)`: exact, case-sensitive comparison. */
    function GetUserByEmail(email: Option<Value>): (r: Option<Record>)
      reads this
      ensures r.None? <==> forall j :: 0 <= j < |users| ==> !Matches(users[j], "email", email)
      ensures r.Some? ==> exists i :: 0 <= i < |users| && users[i] == r.value && Matches(users[i], "email", email)
                                      && forall j :: 0 <= j < i ==> !Matches(users[j], "email", email)
    {
      Find(users, "email", email)
    }

    /** `getUserById(id)`. */
    function GetUserById(id: Option<Value>): (r: Option<Record>)
      reads this
      ensures r.None? <==> forall j :: 0 <= j < |users| ==> !Matches(users[j], "id", id)
      ensures r.Some? ==> exists i :: 0 <= i < |users| && users[i] == r.value && Matches(users[i], "id", id)
                                      && forall j :: 0 <= j < i ==> !Matches(users[j], "id", id)
    {
      Find(users, "id", id)
    }

    /** `addProduct(product)`: appends one stamped record and returns it. */
    method AddProduct(product: Record, now: nat, createdAt: string) returns (added: Record)
      modifies this
      ensures added == NewProduct(product, now, createdAt)
      ensures products == old(products) + [added]
      ensures users == old(users)
    {
      added := NewProduct(product, now, createdAt);
      products := products + [added];
    }

    /**
     * `updateProduct(id, updates)`: an unknown id returns null and writes
     * nothing; otherwise only the first matching record is replaced by the
     * shallow merge, which is returned.
     */
    method UpdateProduct(id: Option<Value>, updates: Record) returns (merged: Option<Record>)
      modifies this
      ensures users == old(users)
      ensures match Updated(old(products), id, updates)
              case None => merged.None? && products == old(products)
              case Some((after, m)) => merged == Some(m) && products == after
    {
      var index := FindIndex(products, "id", id);
      if index.None? {
        return None;
      }
      var m := Merge(products[index.value], updates);
      products := products[index.value := m];
      merged := Some(m);
    }

    /** `deleteProduct(id)`: drops every record with that id and always answers true. */
    method DeleteProduct(id: Option<Value>) returns (ok: bool)
      modifies this
      ensures ok
      ensures products == RemoveMatching(old(products), "id", id)
      ensures users == old(users)
    {
      products := RemoveMatching(products, "id", id);
      ok := true;
    }

    /** `addUser(user)`: appends the stamped user, with no uniqueness check of its own. */
    method AddUser(user: Record, createdAt: string) returns (added: Record)
      modifies this
      ensures added == NewUser(user, createdAt)
      ensures users == old(users) + [added]
      ensures products == old(products)
    {
      added := NewUser(user, createdAt);
      users := users + [added];
    }
  }
}

=== FILE: gate.dfy ===
/**
 * The request gate run before every route (src/middleware.js): a public
 * allow-list, then the admin pages, the admin API and the signed-in customer
 * pages, each checked on the `auth-token` cookie and the result of verifying it.
 */
module Gate {
  import opened Wrappers
  import opened Text
  import opened Json

  /** What the gate does with a request. */
  datatype Decision =
    | Next                                   // NextResponse.next()
    | Redirect(location: string)             // NextResponse.redirect(new URL(location, ...))
    | Reject(status: int, message: string)   // NextResponse.json({ message }, { status })

  /** Paths that pass whatever the cookie holds. */
  predicate IsPublic(pathname: string) {
    || StartsWith(pathname, "/_next")
    || StartsWith(pathname, "/api/auth")
    || StartsWith(pathname, "/api/products")
    || StartsWith(pathname, "/api/countries")
    || Contains(pathname, ".")
    || pathname == "/login"
    || pathname == "/register"
    || pathname == "/"
  }

  predicate IsCustomerPath(pathname: string) {
    StartsWith(pathname, "/profile") || StartsWith(pathname, "/orders") || StartsWith(pathname, "/checkout")
  }

  /** `request.cookies.get('auth-token')?.value`, tested for truthiness. */
  function Token(cookie: Option<string>): (t: Option<string>)
    ensures t.Some? <==> cookie.Some? && cookie.value != ""
    ensures t.Some? ==> t == cookie
  {
    if cookie.Some? && cookie.value != "" then cookie else None
  }

  /** `decoded && decoded.role === 'admin'`. */
  predicate IsAdmin(decoded: Option<Record>) {
    decoded.Some? && StrictEq(Get(decoded.value, "role"), Some(Str("admin")))
  }

  /** The `/admin` block: redirects to the login page or to the home page, or falls through. */
  function AdminPageGuard(pathname: string, cookie: Option<string>, verify: string -> Option<Record>): Option<Decision> {
    if !StartsWith(pathname, "/admin") then None
    else
      match Token(cookie)
      case None => Some(Redirect("/login"))
      case Some(t) => if !IsAdmin(verify(t)) then Some(Redirect("/")) else None
  }

  /** The `/api/admin` block: JSON 401 or 403, or falls through. */
  function AdminApiGuard(pathname: string, cookie: Option<string>, verify: string -> Option<Record>): Option<Decision> {
    if !StartsWith(pathname, "/api/admin") then None
    else
      match Token(cookie)
      case None => Some(Reject(401, "Authentication required"))
      case Some(t) => if !IsAdmin(verify(t)) then Some(Reject(403, "Admin access required")) else None
  }

  /** The customer block: any verified token will do. */
  function CustomerGuard(pathname: string, cookie: Option<string>, verify: string -> Option<Record>): Option<Decision> {
    if !IsCustomerPath(pathname) then None
    else
      match Token(cookie)
      case None => Some(Redirect("/login"))
      case Some(t) => if verify(t).None? then Some(Redirect("/login")) else None
  }

  /** The first guard that decides, else pass through. */
  function FirstOf(a: Option<Decision>, b: Option<Decision>, c: Option<Decision>): Decision {
    if a.Some? then a.value else if b.Some? then b.value else if c.Some? then c.value else Next
  }

  /** The admin page, admin API and customer prefixes never overlap. */
  lemma PrefixesDisjoint(pathname: string)
    ensures StartsWith(pathname, "/admin") ==> !StartsWith(pathname, "/api/admin") && !IsCustomerPath(pathname)
    ensures StartsWith(pathname, "/api/admin") ==> !IsCustomerPath(pathname)
  {
    if StartsWith(pathname, "/admin") {
      assert pathname[1] == 'a' && pathname[2] == 'd';
    }
    if StartsWith(pathname, "/api/admin") {
      assert pathname[1] == 'a' && pathname[2] == 'p';
    }
  }

  /** `middleware(request)`. */
  function Middleware(pathname: string, cookie: Option<string>, verify: string -> Option<Record>): (d: Decision)
    // the allow-list is checked first, so a public path passes whatever the cookie holds
    ensures IsPublic(pathname) ==> d == Next
    // admin pages: no token -> login page; a bad or non-admin token -> home page
    ensures !IsPublic(pathname) && StartsWith(pathname, "/admin") && Token(cookie).None? ==> d == Redirect("/login")
    ensures (!IsPublic(pathname) && StartsWith(pathname, "/admin") && Token(cookie).Some?
             && !IsAdmin(verify(Token(cookie).value))) ==> d == Redirect("/")
    // admin API: never a redirect; 401 without a token, 403 with a bad or non-admin one
    ensures StartsWith(pathname, "/api/admin") ==> !d.Redirect?
    ensures !IsPublic(pathname) && StartsWith(pathname, "/api/admin") && Token(cookie).None?
            ==> d == Reject(401, "Authentication required")
    ensures (!IsPublic(pathname) && StartsWith(pathname, "/api/admin") && Token(cookie).Some?
             && !IsAdmin(verify(Token(cookie).value))) ==> d == Reject(403, "Admin access required")
    // customer pages: a missing or unverifiable token -> login page, any verified token passes
    ensures (!IsPublic(pathname) && IsCustomerPath(pathname)
             && (Token(cookie).None? || verify(Token(cookie).value).None?)) ==> d == Redirect("/login")
    ensures IsCustomerPath(pathname) && Token(cookie).Some? && verify(Token(cookie).value).Some? ==> d == Next
    // JSON responses only come from the admin API
    ensures d.Reject? ==> StartsWith(pathname, "/api/admin")
  {
    PrefixesDisjoint(pathname);
    if IsPublic(pathname) then Next
    else
      FirstOf(AdminPageGuard(pathname, cookie, verify),
              AdminApiGuard(pathname, cookie, verify),
              CustomerGuard(pathname, cookie, verify))
  }

  // ----- An independent statement of the policy --------------------------------

  /** The access a path demands. */
  datatype Access = Open | SignedIn | AdminOnly

  function Required(pathname: string): (a: Access)
    ensures a == AdminOnly ==> !IsCustomerPath(pathname)
  {
    if IsPublic(pathname) then Open
    else if StartsWith(pathname, "/admin") || StartsWith(pathname, "/api/admin") then AdminOnly
    else if IsCustomerPath(pathname) then SignedIn
    else Open
  }

  /** What a request must present to be let through. */
  predicate Permits(access: Access, cookie: Option<string>, verify: string -> Option<Record>) {
    match access
    case Open => true
    case SignedIn => Token(cookie).Some? && verify(Token(cookie).value).Some?
    case AdminOnly => Token(cookie).Some? && IsAdmin(verify(Token(cookie).value))
  }

  /** The gate lets a request through exactly when the policy permits it. */
  lemma {:induction false} MiddlewareMatchesPolicy(pathname: string, cookie: Option<string>, verify: string -> Option<Record>)
    ensures Middleware(pathname, cookie, verify) == Next <==> Permits(Required(pathname), cookie, verify)
  {
    PrefixesDisjoint(pathname);
  }

  /** A verified admin token passes on every path. */
  lemma AdminPassesEverywhere(pathname: string, cookie: Option<string>, verify: string -> Option<Record>)
    requires Token(cookie).Some? && IsAdmin(verify(Token(cookie).value))
    ensures Middleware(pathname, cookie, verify) == Next
  {
    MiddlewareMatchesPolicy(pathname, cookie, verify);
  }

  /** A verified token of any other role is stopped only under `/admin` and `/api/admin`. */
  lemma NonAdminBlockedOnlyUnderAdmin(pathname: string, cookie: Option<string>, verify: string -> Option<Record>)
    requires Token(cookie).Some? && verify(Token(cookie).value).Some? && !IsAdmin(verify(Token(cookie).value))
    ensures Middleware(pathname, cookie, verify) != Next
            <==> !IsPublic(pathname) && (StartsWith(pathname, "/admin") || StartsWith(pathname, "/api/admin"))
  {
    MiddlewareMatchesPolicy(pathname, cookie, verify);
  }

  /**
   * The allow-list runs before the guards, and any path containing a dot is on
   * it: an admin API path with a file extension passes without a token.
   */
  lemma DottedPathSkipsGuards(cookie: Option<string>, verify: string -> Option<Record>)
    ensures IsPublic("/api/admin/products.json")
    ensures StartsWith("/api/admin/products.json", "/api/admin")
    ensures Middleware("/api/admin/products.json", cookie, verify) == Next
  {
    var path := "/api/admin/products.json";
    assert OccursAt(path, ".", 19);
  }

  /** Outside every guarded prefix the token is never consulted. */
  lemma UnguardedPathsIgnoreToken(pathname: string, c1: Option<string>, v1: string -> Option<Record>,
                                  c2: Option<string>, v2: string -> Option<Record>)
    requires !StartsWith(pathname, "/admin") && !StartsWith(pathname, "/api/admin") && !IsCustomerPath(pathname)
    ensures Middleware(pathname, c1, v1) == Middleware(pathname, c2, v2) == Next
  {
  }

  /**
   * The decision depends only on the path, on whether a token is present and
   * on what verifying it gives.
   */
  lemma {:induction false} DependsOnlyOnVerification(pathname: string, c1: Option<string>, v1: string -> Option<Record>,
                                                     c2: Option<string>, v2: string -> Option<Record>)
    requires Token(c1).Some? == Token(c2).Some?
    requires Token(c1).Some? ==> v1(Token(c1).value) == v2(Token(c2).value)
    ensures Middleware(pathname, c1, v1) == Middleware(pathname, c2, v2)
  {
  }
}

=== FILE: geo_context.dfy ===
/**
 * The visitor's location and currency (src/components/GeoContext.js): the
 * provider's state and the three ways it is updated.
 */
module GeoContext {
  import opened Wrappers

  /** `geoData`; `null` and `undefined` are both `None`. */
  datatype GeoData = GeoData(country: Option<string>, countryCode: Option<string>, state: Option<string>,
                             currency: string, symbol: string, states: seq<string>,
                             loading: bool, prompted: bool)

  /** One entry of the `/api/countries` table. */
  datatype CountryInfo = CountryInfo(name: string, currency: string, symbol: string, states: seq<string>)

  /** The location service's answer: `country_code` and `region`. */
  datatype LocationData = LocationData(countryCode: Option<string>, region: Option<string>)

  const Initial := GeoData(None, None, None, "USD", "$", [], true, false)

  /** Detection has finished and the visitor has a location. */
  predicate Resolved(g: GeoData) {
    !g.loading && g.prompted
  }

  /** `countries[data.country_code]`: a missing code looks up the key "undefined". */
  function CountryKey(data: LocationData): (key: string)
    ensures data.countryCode.Some? ==> key == data.countryCode.value
    ensures data.countryCode.None? ==> key == "undefined"
  {
    if data.countryCode.Some? then data.countryCode.value else "undefined"
  }

  /** `data.region || countryData.states[0]`. */
  function InitialState(region: Option<string>, states: seq<string>): (s: Option<string>)
    ensures region.Some? && region.value != "" ==> s == region
    ensures !(region.Some? && region.value != "") ==> (s.Some? <==> |states| > 0)
    ensures !(region.Some? && region.value != "") && |states| > 0 ==> s == Some(states[0])
  {
    if region.Some? && region.value != "" then region
    else if |states| > 0 then Some(states[0])
    else None
  }

  class Provider {
    var geoData: GeoData

    constructor ()
      ensures geoData == Initial
    {
      geoData := Initial;
    }

    /** `setDefaultLocation`: the United States in dollars; a state already chosen is kept. */
    method SetDefaultLocation()
      modifies this
      ensures geoData == old(geoData).(country := Some("United States"), countryCode := Some("US"),
                                       currency := "USD", symbol := "$", states := [],
                                       loading := false, prompted := true)
      ensures Resolved(geoData) && geoData.state == old(geoData.state)
    {
      geoData := geoData.(country := Some("United States"), countryCode := Some("US"),
                          currency := "USD", symbol := "$", states := [],
                          loading := false, prompted := true);
    }

    /**
     * `updateLocationFromData(data)`; `countries` is `None` when the country
     * table could not be fetched. A known country sets the country, currency
     * and states; anything else falls back to the default location.
     */
    method UpdateLocationFromData(data: LocationData, countries: Option<map<string, CountryInfo>>)
      modifies this
      ensures Resolved(geoData)
      ensures countries.Some? && CountryKey(data) in countries.value ==>
                var info := countries.value[CountryKey(data)];
                geoData == old(geoData).(country := Some(info.name), countryCode := data.countryCode,
                                         currency := info.currency, symbol := info.symbol, states := info.states,
                                         state := InitialState(data.region, info.states),
                                         loading := false, prompted := true)
      ensures !(countries.Some? && CountryKey(data) in countries.value) ==>
                geoData == old(geoData).(country := Some("United States"), countryCode := Some("US"),
                                         currency := "USD", symbol := "$", states := [],
                                         loading := false, prompted := true)
    {
      if countries.Some? && CountryKey(data) in countries.value {
        var info := countries.value[CountryKey(data)];
        geoData := geoData.(country := Some(info.name), countryCode := data.countryCode,
                            currency := info.currency, symbol := info.symbol, states := info.states,
                            state := InitialState(data.region, info.states),
                            loading := false, prompted := true);
      } else {
        SetDefaultLocation();
      }
    }

    /** `updateState(newState)`: only the state changes. */
    method UpdateState(newState: string)
      modifies this
      ensures geoData == old(geoData).(state := Some(newState))
      ensures Resolved(old(geoData)) ==> Resolved(geoData)
    {
      geoData := geoData.(state := Some(newState));
    }
  }

  /** A known country without a region starts on the country's first state, which is one of its states. */
  lemma StateFromCountry(region: Option<string>, states: seq<string>)
    requires |states| > 0
    ensures InitialState(region, states).Some?
    ensures !(region.Some? && region.value != "") ==> InitialState(region, states).value in states
  {
  }
}

=== FILE: http.dfy ===
/** JSON responses as the route handlers build them with `NextResponse.json`. */
module Http {
  import opened Json

  datatype Response = Response(status: int, body: Value)

  /** `NextResponse.json({ message }, { status })`. */
  function Error(status: int, message: string): Response {
    Response(status, MessageBody(message))
  }

  /** The response every handler's `catch` block produces. */
  const InternalError: Response := Error(500, "Internal server error")
}

=== FILE: json.dfy ===
/**
 * JSON values as the handlers see them after `JSON.parse`, and the three
 * JavaScript operations the handlers apply to them: truthiness, strict
 * equality (`===`) and object rest/spread.
 */
module Json {
  import opened Wrappers

  /** Numbers are modelled as integers; floating point is not modelled. */
  datatype Value =
    | Null
    | Bool(b: bool)
    | Num(n: int)
    | Str(s: string)
    | Arr(items: seq<Value>)
    | Obj(fields: Record)

  /** A plain object; a key that is absent reads as `undefined`. */
  type Record = map<string, Value>

  /** `r[key]`: `None` stands for `undefined`. */
  function Get(r: Record, key: string): (v: Option<Value>)
    ensures v.Some? <==> key in r
    ensures v.Some? ==> v.value == r[key]
  {
    if key in r then Some(r[key]) else None
  }

  /** JavaScript truthiness (NaN, which has no counterpart here, aside). */
  predicate Truthy(v: Option<Value>) {
    match v
    case None => false
    case Some(Null) => false
    case Some(Bool(b)) => b
    case Some(Num(n)) => n != 0
    case Some(Str(s)) => s != ""
    case Some(Arr(_)) => true
    case Some(Obj(_)) => true
  }

  /** `a || b` evaluates to `a` when `a` is truthy and to `b` otherwise. */
  function Or(a: Option<Value>, b: Value): (r: Value)
    ensures Truthy(a) ==> Some(r) == a
    ensures !Truthy(a) ==> r == b
  {
    if Truthy(a) then a.value else b
  }

  /**
   * `a === b`. `undefined === undefined` holds; primitives compare by value;
   * arrays and objects compare by identity, and no two separately parsed
   * JSON documents share one, so they never compare equal here.
   */
  predicate StrictEq(a: Option<Value>, b: Option<Value>) {
    a == b && !(a.Some? && (a.value.Arr? || a.value.Obj?))
  }

  /** `const { [key]: _, ...rest } = r`: every field but `key`. */
  function Without(r: Record, key: string): (rest: Record)
    ensures key !in rest
    ensures forall k :: k in r && k != key ==> k in rest && rest[k] == r[k]
    ensures forall k :: k in rest ==> k in r
  {
    r - {key}
  }

  /** `{ ...r, ...patch }`: keys of `patch` win, the others keep their values. */
  function Merge(r: Record, patch: Record): (m: Record)
    ensures m.Keys == r.Keys + patch.Keys
    ensures forall k :: k in patch ==> m[k] == patch[k]
    ensures forall k :: k in r && k !in patch ==> m[k] == r[k]
  {
    r + patch
  }

  /** `{ message }`, the body of every error response. */
  function MessageBody(message: string): Value {
    Obj(map["message" := Str(message)])
  }
}

=== FILE: login.dfy ===
/**
 * `POST /api/auth/login` (src/app/api/auth/login/route.js): validate, look the
 * user up by email, check the password, sign a token over `{ id, email, role }`
 * and answer with the user minus its password and an `auth-token` cookie.
 * The handler only reads the users file, so it is a function of its contents.
 */
module LoginRoute {
  import opened Wrappers
  import opened Json
  import opened Http
  import Data

  /** The attributes `serialize('auth-token', token, {...})` writes into `Set-Cookie`. */
  datatype SetCookie = SetCookie(name: string, value: string, httpOnly: bool, secure: bool,
                                 maxAge: int, path: string, sameSite: string)

  datatype Reply = Reply(response: Response, cookie: Option<SetCookie>)

  /** Seven days, in seconds. */
  const SevenDays: int := 60 * 60 * 24 * 7

  /** The claims `signToken` receives: `{ id, email, role }` of the user; undefined ones vanish in JSON. */
  function TokenClaims(user: Record): (claims: Record)
    ensures claims.Keys == user.Keys * {"id", "email", "role"}
    ensures forall k :: k in claims ==> claims[k] == user[k]
  {
    map k | k in user.Keys * {"id", "email", "role"} :: user[k]
  }

  /**
   * The handler. `compare` is bcrypt's `compare(password, hash)` (`None` when
   * it throws, e.g. on a missing hash), `sign` is `signToken`, `production`
   * is `NODE_ENV === 'production'`.
   */
  function Login(users: seq<Record>, body: Option<Record>, compare: (Value, Option<Value>) -> Option<bool>,
                 sign: Record -> string, production: bool): (r: Reply)
    ensures body.None? ==> r == Reply(InternalError, None)
    ensures body.Some? && !(Truthy(Get(body.value, "email")) && Truthy(Get(body.value, "password")))
            ==> r == Reply(Error(400, "Email and password are required"), None)
    // an unknown email and a wrong password are indistinguishable
    ensures r.response.status == 401 <==>
      && body.Some? && Truthy(Get(body.value, "email")) && Truthy(Get(body.value, "password"))
      && var user := Data.Find(users, "email", Get(body.value, "email"));
         (user.None? || compare(body.value["password"], Get(user.value, "password")) == Some(false))
    ensures r.response.status == 401 ==> r == Reply(Error(401, "Invalid email or password"), None)
    // a known email whose password compares equal logs in; a failing comparison is a 500
    ensures (body.Some? && Truthy(Get(body.value, "email")) && Truthy(Get(body.value, "password"))
             && Data.Find(users, "email", Get(body.value, "email")).Some?)
            ==> var user := Data.Find(users, "email", Get(body.value, "email")).value;
                match compare(body.value["password"], Get(user, "password"))
                case Some(true) => r.response.status == 200
                case Some(false) => r.response.status == 401
                case None => r == Reply(InternalError, None)
    ensures r.cookie.Some? <==> r.response.status == 200
    ensures r.response.status == 200 ==>
      && body.Some?
      && var user := Data.Find(users, "email", Get(body.value, "email"));
      && user.Some?
      && compare(body.value["password"], Get(user.value, "password")) == Some(true)
      && var token := sign(TokenClaims(user.value));
      && r.response.body == Obj(map["message" := Str("Login successful"),
                                    "user" := Obj(Without(user.value, "password")),
                                    "token" := Str(token)])
      && r.cookie == Some(SetCookie("auth-token", token, true, production, SevenDays, "/", "lax"))
  {
    match body
    case None => Reply(InternalError, None)
    case Some(b) =>
      var email, password := Get(b, "email"), Get(b, "password");
      if !Truthy(email) || !Truthy(password) then
        Reply(Error(400, "Email and password are required"), None)
      else
        match Data.Find(users, "email", email)
        case None => Reply(Error(401, "Invalid email or password"), None)
        case Some(user) =>
          match compare(password.value, Get(user, "password"))
          case None => Reply(InternalError, None)
          case Some(false) => Reply(Error(401, "Invalid email or password"), None)
          case Some(true) =>
            var token := sign(TokenClaims(user));
            var reply := Obj(map["message" := Str("Login successful"),
                                 "user" := Obj(Without(user, "password")),
                                 "token" := Str(token)]);
            Reply(Response(200, reply), Some(SetCookie("auth-token", token, true, production, SevenDays, "/", "lax")))
  }
}

=== FILE: me.dfy ===
/**
 * `GET /api/auth/me` (src/app/api/auth/me/route.js): read the `auth-token`
 * cookie from the raw `Cookie` header, verify it, look the user up by the
 * token's `id` and answer with the user minus its password.
 */
module MeRoute {
  import opened Wrappers
  import opened Json
  import opened Http
  import opened Cookies
  import Data

  /** The handler; `header` is `request.headers.get('cookie')`. */
  function Me(header: Option<string>, verify: string -> Option<Record>, users: seq<Record>): (r: Response)
    ensures AuthToken(header).None? ==> r == Error(401, "No authentication token")
    ensures AuthToken(header).Some? && verify(AuthToken(header).value).None? ==> r == Error(401, "Invalid token")
    ensures r.status == 404 <==>
      && AuthToken(header).Some? && verify(AuthToken(header).value).Some?
      && Data.Find(users, "id", Get(verify(AuthToken(header).value).value, "id")).None?
    ensures r.status == 404 ==> r == Error(404, "User not found")
    ensures r.status == 200 ==>
      && AuthToken(header).Some? && verify(AuthToken(header).value).Some?
      && var user := Data.Find(users, "id", Get(verify(AuthToken(header).value).value, "id"));
      && user.Some? && r.body == Obj(Without(user.value, "password"))
    ensures r.status == 401 <==> AuthToken(header).None? || verify(AuthToken(header).value).None?
    ensures r.status in {200, 401, 404}
  {
    if header.None? || header.value == "" then Error(401, "No authentication token")
    else
      match Lookup(ParseCookies(header.value), "auth-token")
      case None => Error(401, "No authentication token")
      case Some(token) =>
        match verify(token)
        case None => Error(401, "Invalid token")
        case Some(decoded) =>
          match Data.Find(users, "id", Get(decoded, "id"))
          case None => Error(404, "User not found")
          case Some(user) => Response(200, Obj(Without(user, "password")))
  }
}

=== FILE: product_card.dfy ===
/**
 * The product card (src/components/ProductCard.jsx): the price shown in the
 * visitor's currency, "Add to Cart" against `localStorage.cart`, and the
 * stock badge and button state.
 */
module ProductCard {
  import opened Wrappers
  import opened Text
  import opened Catalog

  /**
   * `product["price_in_" + currency.toLowerCase()] || product.price_in_usd`: the
   * currency's own price when it is present and non-zero, the dollar price otherwise.
   */
  function PriceFor(p: Product, currency: string): (price: int)
    ensures PriceField(p, "price_in_" + Lower(currency)).Some? && PriceField(p, "price_in_" + Lower(currency)).value != 0
            ==> price == PriceField(p, "price_in_" + Lower(currency)).value
    ensures !(PriceField(p, "price_in_" + Lower(currency)).Some? && PriceField(p, "price_in_" + Lower(currency)).value != 0)
            ==> price == p.priceUsd
  {
    match PriceField(p, "price_in_" + Lower(currency))
    case Some(v) => if v != 0 then v else p.priceUsd
    case None => p.priceUsd
  }

  /** The currency code's case does not matter. */
  lemma PriceIgnoresCase(p: Product, currency: string)
    ensures PriceFor(p, currency) == PriceFor(p, Lower(currency))
  {
    LowerIdempotent(currency);
  }

  /** `cart.find(item => item.id === product.id)`, as the index of the first such line. */
  function FindId(cart: seq<CartItem>, id: string): (r: Option<nat>)
    ensures r.Some? ==> r.value < |cart| && cart[r.value].id == id
                        && forall j :: 0 <= j < r.value ==> cart[j].id != id
    ensures r.None? ==> forall j :: 0 <= j < |cart| ==> cart[j].id != id
    decreases |cart|
  {
    if cart == [] then None
    else if cart[0].id == id then Some(0)
    else match FindId(cart[1..], id)
      case None => None
      case Some(k) => Some(k + 1)
  }

  /** The line `addToCart` appends for a product not yet in the cart. */
  function NewLine(p: Product, currency: string): (item: CartItem)
    ensures item.id == p.id && item.title == p.title && item.quantity == 1
    ensures item.price == PriceFor(p, currency)
    ensures item.image == First(p.images) && item.size == First(p.sizes)
  {
    CartItem(p.id, p.title, PriceFor(p, currency), First(p.images), 1, First(p.sizes))
  }

  /** The cart `addToCart` stores. */
  function AddedToCart(cart: seq<CartItem>, p: Product, currency: string): (r: seq<CartItem>)
    ensures FindId(cart, p.id).Some? ==> |r| == |cart|
    // the product's first line gains one unit and keeps its other fields; every other line is unchanged
    ensures FindId(cart, p.id).Some? ==>
              forall j :: 0 <= j < |cart| ==>
                r[j] == if j == FindId(cart, p.id).value then cart[j].(quantity := cart[j].quantity + 1) else cart[j]
    ensures FindId(cart, p.id).None? ==> r == cart + [NewLine(p, currency)]
  {
    match FindId(cart, p.id)
    case Some(i) => cart[i := cart[i].(quantity := cart[i].quantity + 1)]
    case None => cart + [NewLine(p, currency)]
  }

  /** Adding a product adds one unit to the cart, whichever branch is taken. */
  lemma AddOneUnit(cart: seq<CartItem>, p: Product, currency: string)
    ensures TotalQuantity(AddedToCart(cart, p, currency)) == TotalQuantity(cart) + 1
  {
    match FindId(cart, p.id)
    case Some(i) => TotalQuantityAt(cart, i, cart[i].quantity + 1);
    case None => TotalQuantityAppend(cart, NewLine(p, currency));
  }

  /**
   * Lines of other products are untouched, the product ends up with a line,
   * and a line is appended only when the product had none.
   */
  lemma AddTouchesOnlyItsProduct(cart: seq<CartItem>, p: Product, currency: string)
    ensures var r := AddedToCart(cart, p, currency);
            |cart| <= |r| <= |cart| + 1
            && (forall j :: 0 <= j < |cart| && cart[j].id != p.id ==> r[j] == cart[j])
            && (exists j :: 0 <= j < |r| && r[j].id == p.id)
            && (|r| == |cart| + 1 ==> forall j :: 0 <= j < |cart| ==> cart[j].id != p.id)
  {
    var r := AddedToCart(cart, p, currency);
    match FindId(cart, p.id)
    case Some(i) => assert r[i].id == p.id;
    case None => assert r[|cart|].id == p.id;
  }

  /** Adding a product twice gives one line with two more units, not two lines. */
  lemma AddTwiceKeepsOneLine(cart: seq<CartItem>, p: Product, currency: string)
    ensures var once := AddedToCart(cart, p, currency);
            var twice := AddedToCart(once, p, currency);
            |twice| == |once| && TotalQuantity(twice) == TotalQuantity(cart) + 2
  {
    var once := AddedToCart(cart, p, currency);
    AddOneUnit(cart, p, currency);
    AddOneUnit(once, p, currency);
    AddTouchesOnlyItsProduct(cart, p, currency);
    var j :| 0 <= j < |once| && once[j].id == p.id;
    assert FindId(once, p.id).Some?;
  }

  /** `addToCart`: the stored cart becomes `AddedToCart` of the stored cart. */
  method AddToCart(storage: CartStorage, p: Product, currency: string)
    modifies storage
    ensures storage.items == AddedToCart(old(storage.items), p, currency)
    ensures TotalQuantity(storage.items) == TotalQuantity(old(storage.items)) + 1
  {
    AddOneUnit(storage.items, p, currency);
    storage.items := AddedToCart(storage.items, p, currency);
  }

  /** The badge over the product image. */
  datatype Badge = NoBadge | OnlyLeft(count: int) | OutOfStock

  function StockBadge(p: Product): (b: Badge)
    ensures b.OnlyLeft? <==> 0 < p.stock <= 5
    ensures b.OnlyLeft? ==> b.count == p.stock
    ensures b.OutOfStock? <==> p.stock == 0
  {
    if p.stock <= 5 && p.stock > 0 then OnlyLeft(p.stock)
    else if p.stock == 0 then OutOfStock
    else NoBadge
  }

  /** The "Add to Cart" button is disabled exactly for a stock of 0. */
  predicate AddDisabled(p: Product) {
    p.stock == 0
  }

  /**
   * The button is disabled exactly when the badge says "Out of Stock"; a
   * negative stock shows no badge and leaves the button enabled.
   */
  lemma DisabledIffOutOfStock(p: Product)
    ensures AddDisabled(p) <==> StockBadge(p).OutOfStock?
    ensures p.stock < 0 ==> StockBadge(p).NoBadge? && !AddDisabled(p)
  {
  }
}

=== FILE: products_page.dfy ===
/**
 * The catalog page (src/app/products/page.js): loading the product list, the
 * search filter and the three sort orders.
 */
module ProductsPage {
  import opened Text
  import opened Catalog

  /** How the `fetch('/api/products')` call ended. */
  datatype FetchResult =
    | Failed                      // the request threw, or `response.json()` did
    | NotOk(status: int)          // `!response.ok`
    | NotAList                    // the body parsed but is not an array
    | Loaded(items: seq<Product>)

  datatype ListState = ListState(products: seq<Product>, loading: bool)

  const InitialState := ListState([], true)

  /** `fetchProducts`: the list is the array received, or empty on any failure; loading ends either way. */
  function AfterFetch(result: FetchResult): (s: ListState)
    ensures !s.loading
    ensures result.Loaded? ==> s.products == result.items
    ensures !result.Loaded? ==> s.products == []
  {
    match result
    case Loaded(items) => ListState(items, false)
    case _ => ListState([], false)
  }

  /** The search filter's test: the lowercased term occurs in the lowercased title or description. */
  predicate MatchesSearch(p: Product, term: string) {
    Contains(Lower(p.title), Lower(term)) || Contains(Lower(p.description), Lower(term))
  }

  /** `products.filter(...)` with the search term. */
  function Filtered(products: seq<Product>, term: string): (r: seq<Product>)
    ensures |r| <= |products|
    ensures forall p :: p in r <==> p in products && MatchesSearch(p, term)
    decreases |products|
  {
    if products == [] then []
    else
      var rest := Filtered(products[1..], term);
      assert forall p :: p in products <==> p == products[0] || p in products[1..];
      if MatchesSearch(products[0], term) then [products[0]] + rest else rest
  }

  /** The filter distributes over concatenation, so it keeps the catalog's order. */
  lemma {:induction false} FilteredAppend(a: seq<Product>, b: seq<Product>, term: string)
    ensures Filtered(a + b, term) == Filtered(a, term) + Filtered(b, term)
    decreases |a|
  {
    if a == [] {
      assert a + b == b;
    } else {
      assert (a + b)[1..] == a[1..] + b;
      FilteredAppend(a[1..], b, term);
    }
  }

  /** An empty search term keeps every product. */
  lemma {:induction false} EmptySearchKeepsAll(products: seq<Product>)
    ensures Filtered(products, "") == products
    decreases |products|
  {
    if products != [] {
      assert Lower("") == "";
      assert OccursAt(Lower(products[0].title), "", 0);
      EmptySearchKeepsAll(products[1..]);
    }
  }

  /** The search ignores the case of the term. */
  lemma SearchIgnoresTermCase(p: Product, term: string)
    ensures MatchesSearch(p, term) <==> MatchesSearch(p, Lower(term))
  {
    LowerIdempotent(term);
  }

  /**
   * The sort key each order compares. `collate` gives a title's position in the
   * locale's collation order, standing for `localeCompare`. Any value other than
   * the two price orders sorts by title, as the comparator's `default` does.
   */
  function SortKey(sortBy: string, collate: string -> int, p: Product): int {
    if sortBy == "price-low" then p.priceUsd
    else if sortBy == "price-high" then -p.priceUsd
    else collate(p.title)
  }

  predicate SortedByKey(s: seq<Product>, key: Product -> int) {
    forall i, j :: 0 <= i < j < |s| ==> key(s[i]) <= key(s[j])
  }

  /** Putting an element no greater than the head in front of a sorted list keeps it sorted. */
  lemma SortedCons(x: Product, s: seq<Product>, key: Product -> int)
    requires SortedByKey(s, key)
    requires s != [] ==> key(x) <= key(s[0])
    ensures SortedByKey([x] + s, key)
  {
    var r := [x] + s;
    forall i, j | 0 <= i < j < |r| ensures key(r[i]) <= key(r[j]) {
      if i == 0 && j > 1 {
        assert key(s[0]) <= key(s[j - 1]);
      }
    }
  }

  /** Places `p` after every leading element whose key is not greater than its own. */
  function Insert(p: Product, s: seq<Product>, key: Product -> int): (r: seq<Product>)
    requires SortedByKey(s, key)
    ensures |r| == |s| + 1
    ensures r[0] == p || (s != [] && r[0] == s[0])
    ensures SortedByKey(r, key)
    ensures multiset(r) == multiset(s) + multiset{p}
    decreases |s|
  {
    if s == [] then [p]
    else if key(p) < key(s[0]) then
      SortedCons(p, s, key);
      [p] + s
    else
      var rest := Insert(p, s[1..], key);
      assert s[1..] != [] ==> key(s[0]) <= key(s[1..][0]);
      SortedCons(s[0], rest, key);
      assert s == [s[0]] + s[1..];
      [s[0]] + rest
  }

  /** An insertion sort by `key`: a sorted permutation of its input. */
  function SortByKey(s: seq<Product>, key: Product -> int): (r: seq<Product>)
    ensures SortedByKey(r, key)
    ensures multiset(r) == multiset(s)
    decreases |s|
  {
    if s == [] then []
    else
      assert s == s[..|s| - 1] + [s[|s| - 1]];
      Insert(s[|s| - 1], SortByKey(s[..|s| - 1], key), key)
  }

  /** `[...filtered].sort(...)` with the chosen order: a sorted permutation of the list, which itself is not changed. */
  function Sorted(s: seq<Product>, sortBy: string, collate: string -> int): (r: seq<Product>)
    ensures forall i, j :: 0 <= i < j < |r| ==> SortKey(sortBy, collate, r[i]) <= SortKey(sortBy, collate, r[j])
    ensures multiset(r) == multiset(s)
  {
    SortByKey(s, p => SortKey(sortBy, collate, p))
  }

  /** "Price: Low to High" and "High to Low" order by the dollar price. */
  lemma PriceOrders(s: seq<Product>, collate: string -> int)
    ensures var low := Sorted(s, "price-low", collate);
            forall i, j :: 0 <= i < j < |low| ==> low[i].priceUsd <= low[j].priceUsd
    ensures var high := Sorted(s, "price-high", collate);
            forall i, j :: 0 <= i < j < |high| ==> high[i].priceUsd >= high[j].priceUsd
  {
    var low := Sorted(s, "price-low", collate);
    var high := Sorted(s, "price-high", collate);
    forall i, j | 0 <= i < j < |low| ensures low[i].priceUsd <= low[j].priceUsd {
      assert SortKey("price-low", collate, low[i]) <= SortKey("price-low", collate, low[j]);
    }
    forall i, j | 0 <= i < j < |high| ensures high[i].priceUsd >= high[j].priceUsd {
      assert SortKey("price-high", collate, high[i]) <= SortKey("price-high", collate, high[j]);
    }
  }

  /** What the grid shows: the filtered list in the chosen order. */
  function Shown(products: seq<Product>, term: string, sortBy: string, collate: string -> int): (r: seq<Product>)
    ensures forall i, j :: 0 <= i < j < |r| ==> SortKey(sortBy, collate, r[i]) <= SortKey(sortBy, collate, r[j])
    ensures multiset(r) == multiset(Filtered(products, term))
  {
    Sorted(Filtered(products, term), sortBy, collate)
  }

  /**
   * "Showing X of Y": X never exceeds Y, every product shown matches the search,
   * and every matching product is shown.
   */
  lemma ShownCount(products: seq<Product>, term: string, sortBy: string, collate: string -> int)
    ensures |Shown(products, term, sortBy, collate)| <= |products|
    ensures forall p :: p in Shown(products, term, sortBy, collate) <==> p in products && MatchesSearch(p, term)
  {
    var f := Filtered(products, term);
    var r := Shown(products, term, sortBy, collate);
    assert |multiset(r)| == |multiset(f)|;
    assert forall p :: p in r <==> p in multiset(r);
    assert forall p :: p in f <==> p in multiset(f);
  }
}

=== FILE: register.dfy ===
/**
 * `POST /api/auth/register` (src/app/api/auth/register/route.js): validate,
 * refuse a known email with 409, otherwise append a customer whose password is
 * replaced by its hash, and answer 201 with the user minus its password.
 */
module RegisterRoute {
  import opened Wrappers
  import opened Json
  import opened Http
  import Data

  /** The handler's decision, and the user record it hands to `addUser`, if any. */
  datatype Outcome = Outcome(response: Response, created: Option<Record>)

  /**
   * The guard chain. `body` is `None` when `request.json()` fails; `hash` is
   * bcrypt's `hash(password, 10)`, `None` when it throws; `newId` is what
   * `generateUserId()` returned.
   */
  function Plan(users: seq<Record>, body: Option<Record>, hash: Value -> Option<string>, newId: string): (o: Outcome)
    ensures body.None? ==> o == Outcome(InternalError, None)
    ensures body.Some? && !(Truthy(Get(body.value, "name")) && Truthy(Get(body.value, "email")) && Truthy(Get(body.value, "password")))
            ==> o == Outcome(Error(400, "Name, email, and password are required"), None)
    ensures (body.Some? && Truthy(Get(body.value, "name")) && Truthy(Get(body.value, "email")) && Truthy(Get(body.value, "password"))
             && Data.Find(users, "email", Get(body.value, "email")).Some?)
            ==> o == Outcome(Error(409, "User with this email already exists"), None)
    // a valid request for an unused email is created, unless hashing fails
    ensures (body.Some? && Truthy(Get(body.value, "name")) && Truthy(Get(body.value, "email")) && Truthy(Get(body.value, "password"))
             && Data.Find(users, "email", Get(body.value, "email")).None?)
            ==> (if hash(body.value["password"]).Some? then o.created.Some? else o == Outcome(InternalError, None))
    ensures o.created.Some? <==> o.response.status == 201
    ensures o.created.Some? ==>
      var b, u := body.value, o.created.value;
      && Truthy(Get(b, "name")) && Truthy(Get(b, "email")) && Truthy(Get(b, "password"))
      && (forall j :: 0 <= j < |users| ==> !Data.Matches(users[j], "email", Get(b, "email")))
      && hash(b["password"]).Some?
      && u == map["id" := Str(newId), "name" := b["name"], "email" := b["email"],
                  "password" := Str(hash(b["password"]).value), "role" := Str("customer")]
      && o.response.body == Obj(map["message" := Str("User created successfully"), "user" := Obj(Without(u, "password"))])
  {
    match body
    case None => Outcome(InternalError, None)
    case Some(b) =>
      var name, email, password := Get(b, "name"), Get(b, "email"), Get(b, "password");
      if !Truthy(name) || !Truthy(email) || !Truthy(password) then
        Outcome(Error(400, "Name, email, and password are required"), None)
      else if Data.Find(users, "email", email).Some? then
        Outcome(Error(409, "User with this email already exists"), None)
      else
        match hash(password.value)
        case None => Outcome(InternalError, None)
        case Some(hashed) =>
          var user := map["id" := Str(newId), "name" := name.value, "email" := email.value,
                           "password" := Str(hashed), "role" := Str("customer")];
          var reply := Obj(map["message" := Str("User created successfully"), "user" := Obj(Without(user, "password"))]);
          Outcome(Response(201, reply), Some(user))
  }

  /** The users file after the request. */
  function UsersAfter(users: seq<Record>, body: Option<Record>, hash: Value -> Option<string>,
                      newId: string, createdAt: string): seq<Record>
  {
    match Plan(users, body, hash, newId).created
    case None => users
    case Some(u) => users + [Data.NewUser(u, createdAt)]
  }

  /** `POST(request)` against the store. */
  method Post(store: Data.Store, body: Option<Record>, hash: Value -> Option<string>, newId: string, createdAt: string)
    returns (response: Response)
    modifies store
    ensures response == Plan(old(store.users), body, hash, newId).response
    ensures store.users == UsersAfter(old(store.users), body, hash, newId, createdAt)
    ensures store.products == old(store.products)
  {
    var outcome := Plan(store.users, body, hash, newId);
    if outcome.created.Some? {
      var _ := store.AddUser(outcome.created.value, createdAt);
    }
    response := outcome.response;
  }

  /** No two stored users share an email (under `===`). */
  predicate DistinctEmails(users: seq<Record>) {
    forall i, j :: 0 <= i < j < |users| ==> !Data.Matches(users[j], "email", Get(users[i], "email"))
  }

  /** A register call leaves the users file unchanged or appends exactly one user. */
  lemma {:induction false} RegisterAppendsAtMostOne(users: seq<Record>, body: Option<Record>, hash: Value -> Option<string>,
                                                    newId: string, createdAt: string)
    ensures var after := UsersAfter(users, body, hash, newId, createdAt);
      && (Plan(users, body, hash, newId).response.status != 201 ==> after == users)
      && (Plan(users, body, hash, newId).response.status == 201 ==>
            |after| == |users| + 1 && after[..|users|] == users
            && after[|users|]["role"] == Str("customer")
            && after[|users|]["password"] == Str(hash(body.value["password"]).value)
            && after[|users|]["email"] == body.value["email"])
  {
    var o := Plan(users, body, hash, newId);
    if o.created.Some? {
      var after := UsersAfter(users, body, hash, newId, createdAt);
      assert after == users + [Data.NewUser(o.created.value, createdAt)];
      assert after[..|users|] == users;
    }
  }

  /** Register keeps the stored emails distinct. */
  lemma {:induction false} RegisterKeepsEmailsDistinct(users: seq<Record>, body: Option<Record>, hash: Value -> Option<string>,
                                                       newId: string, createdAt: string)
    requires DistinctEmails(users)
    ensures DistinctEmails(UsersAfter(users, body, hash, newId, createdAt))
  {
    var o := Plan(users, body, hash, newId);
    if o.created.Some? {
      var after := UsersAfter(users, body, hash, newId, createdAt);
      var email := Get(body.value, "email");
      assert Get(after[|users|], "email") == email;
      forall i, j | 0 <= i < j < |after|
        ensures !Data.Matches(after[j], "email", Get(after[i], "email"))
      {
        if j == |users| {
          assert !Data.Matches(users[i], "email", email);
          assert after[i] == users[i];
        } else {
          assert after[i] == users[i] && after[j] == users[j];
        }
      }
    }
  }

  /** One register request: its body, the generated id and the clock reading. */
  datatype Request = Request(body: Option<Record>, newId: string, createdAt: string)

  /** The users file after serving `requests` one after another. */
  function UsersAfterAll(users: seq<Record>, requests: seq<Request>, hash: Value -> Option<string>): seq<Record>
    decreases |requests|
  {
    if requests == [] then users
    else
      var r := requests[0];
      UsersAfterAll(UsersAfter(users, r.body, hash, r.newId, r.createdAt), requests[1..], hash)
  }

  /** Served sequentially, any number of register requests keeps the emails distinct. */
  lemma {:induction false} SequentialRegisterKeepsEmailsDistinct(users: seq<Record>, requests: seq<Request>,
                                                                 hash: Value -> Option<string>)
    requires DistinctEmails(users)
    ensures DistinctEmails(UsersAfterAll(users, requests, hash))
    decreases |requests|
  {
    if requests != [] {
      var r := requests[0];
      RegisterKeepsEmailsDistinct(users, r.body, hash, r.newId, r.createdAt);
      SequentialRegisterKeepsEmailsDistinct(UsersAfter(users, r.body, hash, r.newId, r.createdAt), requests[1..], hash);
    }
  }

  /**
   * After a successful registration, registering the same email string again
   * gives 409. (An email sent as a JSON object or array never conflicts, since
   * `===` compares those by identity.)
   */
  lemma {:induction false} SecondRegistrationConflicts(users: seq<Record>, first: Request, second: Option<Record>,
                                                       hash: Value -> Option<string>, newId: string)
    requires Plan(users, first.body, hash, first.newId).response.status == 201
    requires second.Some? && Truthy(Get(second.value, "name")) && Truthy(Get(second.value, "password"))
    requires Get(second.value, "email") == Get(first.body.value, "email")
    requires Get(second.value, "email").Some? && Get(second.value, "email").value.Str?
    ensures Plan(UsersAfter(users, first.body, hash, first.newId, first.createdAt), second, hash, newId).response.status == 409
  {
    var after := UsersAfter(users, first.body, hash, first.newId, first.createdAt);
    var email := Get(first.body.value, "email");
    assert Get(after[|users|], "email") == email;
    assert Data.Matches(after[|users|], "email", email);
  }
}

=== FILE: text.dfy ===
/**
 * String helpers with JavaScript's semantics: `startsWith`, `includes`,
 * `indexOf`, `split` with a non-empty separator, `join`, ASCII `toLowerCase`,
 * and the decimal rendering of a natural number.
 */
module Text {
  import opened Wrappers

  predicate StartsWith(s: string, prefix: string) {
    |prefix| <= |s| && s[..|prefix|] == prefix
  }

  /** `t` occurs in `s` starting at index `i`. */
  predicate OccursAt(s: string, t: string, i: int) {
    0 <= i && i + |t| <= |s| && s[i..i + |t|] == t
  }

  /** `s.indexOf(t)`: the first index at which `t` occurs, if any. */
  function IndexOf(s: string, t: string): (r: Option<nat>)
    ensures r.Some? ==> OccursAt(s, t, r.value)
    ensures r.Some? ==> forall j :: 0 <= j < r.value ==> !OccursAt(s, t, j)
    ensures r.None? ==> forall j :: !OccursAt(s, t, j)
    decreases |s|
  {
    if |s| < |t| then None
    else if s[..|t|] == t then Some(0)
    else
      match IndexOf(s[1..], t)
      case None =>
        assert forall j :: 1 <= j && OccursAt(s, t, j) ==> OccursAt(s[1..], t, j - 1);
        None
      case Some(k) =>
        assert OccursAt(s, t, k + 1) by { assert s[k + 1..k + 1 + |t|] == s[1..][k..k + |t|]; }
        assert forall j :: 1 <= j <= k && OccursAt(s, t, j) ==> OccursAt(s[1..], t, j - 1);
        Some(k + 1)
  }

  /** `s.includes(t)`. */
  predicate Contains(s: string, t: string) {
    IndexOf(s, t).Some?
  }

  /** The first occurrence of `t` in a prefix of `s` is also the first in `s`. */
  lemma {:induction false} IndexOfExtend(a: string, b: string, t: string)
    requires IndexOf(a, t).Some?
    ensures IndexOf(a + b, t) == IndexOf(a, t)
  {
    var i := IndexOf(a, t).value;
    var ab := a + b;
    assert ab[..|a|] == a;
    forall j | 0 <= j <= i
      ensures OccursAt(ab, t, j) == OccursAt(a, t, j)
    {
      assert ab[j..j + |t|] == a[j..j + |t|];
    }
    var r := IndexOf(ab, t);
    assert r.Some? && r.value <= i;
    assert r.value >= i;
  }

  /** `parts.join(sep)`. */
  function Join(parts: seq<string>, sep: string): string
    decreases |parts|
  {
    if |parts| == 0 then ""
    else if |parts| == 1 then parts[0]
    else parts[0] + sep + Join(parts[1..], sep)
  }

  /** `s.split(sep)` for a non-empty separator. */
  function Split(s: string, sep: string): (parts: seq<string>)
    requires sep != ""
    ensures |parts| >= 1
    ensures Join(parts, sep) == s
    ensures forall k :: 0 <= k < |parts| ==> !Contains(parts[k], sep)
    // the first piece ends where the separator first occurs; for a separator that cannot overlap
    // itself (such as "; ", "=" or ".") the ensures fix the pieces, and SplitStep gives the general recursion
    ensures |parts| > 1 ==> IndexOf(s, sep) == Some(|parts[0]|)
    ensures |parts| == 1 ==> IndexOf(s, sep).None?
    decreases |s|
  {
    match IndexOf(s, sep)
    case None => [s]
    case Some(i) =>
      var head, rest := s[..i], Split(s[i + |sep|..], sep);
      assert !Contains(head, sep) by {
        forall j | OccursAt(head, sep, j) ensures false {
          assert s[j..j + |sep|] == head[j..j + |sep|];
          assert OccursAt(s, sep, j);
        }
      }
      assert ([head] + rest)[1..] == rest;
      assert s == head + sep + s[i + |sep|..] by { assert s[i..i + |sep|] == sep; }
      [head] + rest
  }

  /** The last piece of a join is a suffix of it, preceded by `sep` when there is more than one piece. */
  lemma {:induction false} JoinLast(parts: seq<string>, sep: string)
    requires |parts| >= 2
    ensures Join(parts, sep) == Join(parts[..|parts| - 1], sep) + sep + parts[|parts| - 1]
    decreases |parts|
  {
    if |parts| > 2 {
      JoinLast(parts[1..], sep);
      assert parts[1..][..|parts| - 2] == parts[..|parts| - 1][1..];
      assert parts[1..][|parts| - 2] == parts[|parts| - 1];
    }
  }

  /** One step of `split`: the piece before the first separator, then the split of what follows it. */
  lemma SplitStep(s: string, sep: string, i: nat)
    requires sep != "" && IndexOf(s, sep) == Some(i)
    ensures i + |sep| <= |s|
    ensures Split(s, sep) == [s[..i]] + Split(s[i + |sep|..], sep)
  {
  }

  /**
   * Round trip: splitting the join of `parts` gives `parts` back when every
   * piece but the last is followed by its own first occurrence of `sep`, and
   * the last piece does not contain `sep`.
   */
  lemma {:induction false} SplitJoin(parts: seq<string>, sep: string)
    requires sep != "" && |parts| >= 1
    requires forall k :: 0 <= k < |parts| - 1 ==> IndexOf(parts[k] + sep, sep) == Some(|parts[k]|)
    requires !Contains(parts[|parts| - 1], sep)
    ensures Split(Join(parts, sep), sep) == parts
    decreases |parts|
  {
    if |parts| > 1 {
      var p, rest := parts[0], Join(parts[1..], sep);
      assert Join(parts, sep) == (p + sep) + rest;
      IndexOfExtend(p + sep, rest, sep);
      SplitStep(p + sep + rest, sep, |p|);
      assert (p + sep + rest)[..|p|] == p;
      assert (p + sep + rest)[|p| + |sep|..] == rest;
      SplitJoin(parts[1..], sep);
      assert [p] + parts[1..] == parts;
    }
  }

  /** ASCII lower-casing of one character. */
  function LowerChar(c: char): (r: char)
    ensures 'A' <= c <= 'Z' ==> r as int == c as int + 32
    ensures !('A' <= c <= 'Z') ==> r == c
  {
    if 'A' <= c <= 'Z' then (c as int + 32) as char else c
  }

  /** `s.toLowerCase()` restricted to ASCII letters. */
  function Lower(s: string): (r: string)
    ensures |r| == |s|
    ensures forall i :: 0 <= i < |s| ==> r[i] == LowerChar(s[i])
  {
    seq(|s|, i requires 0 <= i < |s| => LowerChar(s[i]))
  }

  /** Lower-casing twice is lower-casing once. */
  lemma LowerIdempotent(s: string)
    ensures Lower(Lower(s)) == Lower(s)
  {
    assert forall i :: 0 <= i < |s| ==> LowerChar(LowerChar(s[i])) == LowerChar(s[i]);
  }

  function DigitChar(d: nat): (c: char)
    requires d < 10
    ensures IsDigit(c) && c as int - '0' as int == d
  {
    ['0', '1', '2', '3', '4', '5', '6', '7', '8', '9'][d]
  }

  predicate IsDigit(c: char) {
    '0' <= c <= '9'
  }

  /** The number a string of decimal digits denotes, most significant first. */
  function DigitsValue(s: string): nat
    requires forall i :: 0 <= i < |s| ==> IsDigit(s[i])
    decreases |s|
  {
    if s == [] then 0
    else
      assert IsDigit(s[|s| - 1]);
      DigitsValue(s[..|s| - 1]) * 10 + (s[|s| - 1] as int - '0' as int)
  }

  /** `String(n)` for a natural number: its decimal digits, most significant first, without leading zeros. */
  function Decimal(n: nat): (r: string)
    ensures |r| >= 1
    ensures forall i :: 0 <= i < |r| ==> IsDigit(r[i])
    ensures DigitsValue(r) == n
    ensures |r| > 1 ==> r[0] != '0'
    decreases n
  {
    if n < 10 then [DigitChar(n)]
    else
      var r := Decimal(n / 10) + [DigitChar(n % 10)];
      assert r[..|r| - 1] == Decimal(n / 10);
      r
  }
}

=== FILE: upload.dfy ===
/**
 * `POST /api/admin/upload` (src/app/api/admin/upload/route.js): the admin
 * check, then the uploaded file's presence, MIME type and size, in that order;
 * a file that passes is stored under a generated name ending in its extension.
 */
module UploadRoute {
  import opened Wrappers
  import opened Text
  import opened Json
  import opened Http
  import AdminProductsRoute

  /** What `formData.get('file')` returns: an uploaded file or a plain text field. */
  datatype FormEntry = FileEntry(name: string, mimeType: string, size: int) | TextEntry(text: string)

  /** The request body: not readable as form data, or a form with or without a `file` entry. */
  datatype UploadBody = Unreadable | Form(file: Option<FormEntry>)

  const AllowedTypes: set<string> := {"image/jpeg", "image/png", "image/webp", "video/mp4"}

  /** 10 MB. */
  const MaxSize: int := 10 * 1024 * 1024

  /**
   * `name.split('.').pop()`: the text after the last ".", or the whole name
   * when it has none.
   */
  function Extension(name: string): (ext: string)
    ensures !Contains(ext, ".")
    ensures |ext| <= |name| && name[|name| - |ext|..] == ext
    ensures |ext| < |name| ==> name[|name| - |ext| - 1] == '.'
    ensures !Contains(name, ".") ==> ext == name
  {
    var parts := Split(name, ".");
    var ext := parts[|parts| - 1];
    if |parts| == 1 then ext
    else
      JoinLast(parts, ".");
      var front := Join(parts[..|parts| - 1], ".");
      assert name == front + "." + ext;
      assert name[|name| - |ext|..] == ext;
      assert OccursAt(name, ".", |front|) by { assert name[|front|..|front| + 1] == "."; }
      ext
  }

  /** `${timestamp}-${random}.${extension}`. */
  function FileName(now: nat, random: string, originalName: string): (filename: string)
    ensures |filename| > |Extension(originalName)|
    ensures filename[|filename| - |Extension(originalName)| - 1..] == "." + Extension(originalName)
  {
    var ext := Extension(originalName);
    var prefix := Decimal(now) + "-" + random;
    var filename := prefix + ("." + ext);
    assert filename[|prefix|..] == "." + ext;
    filename
  }

  const NoFile := "No file uploaded"
  const BadType := "Invalid file type. Only JPEG, PNG, WebP images and MP4 videos are allowed."
  const TooLarge := "File size too large. Maximum size is 10MB."

  /** A file entry that passes every check: a file of an allowed type within the size limit. */
  predicate Acceptable(file: Option<FormEntry>) {
    file.Some? && file.value.FileEntry? && file.value.mimeType in AllowedTypes && file.value.size <= MaxSize
  }

  /**
   * The checks on the form's `file` entry, in order: present (an empty text
   * field is falsy), an allowed MIME type (a text field has none), at most
   * 10 MB. The first failing one gives the 400 answer.
   */
  function FileRejection(file: Option<FormEntry>): (r: Option<Response>)
    ensures file.None? || file == Some(TextEntry("")) ==> r == Some(Error(400, NoFile))
    ensures (file.Some? && file.value != TextEntry("") && (file.value.TextEntry? || file.value.mimeType !in AllowedTypes))
            ==> r == Some(Error(400, BadType))
    ensures (file.Some? && file.value.FileEntry? && file.value.mimeType in AllowedTypes && file.value.size > MaxSize)
            ==> r == Some(Error(400, TooLarge))
    ensures r.None? <==> Acceptable(file)
  {
    if file.None? || file.value == TextEntry("") then Some(Error(400, NoFile))
    else if file.value.TextEntry? || file.value.mimeType !in AllowedTypes then Some(Error(400, BadType))
    else if file.value.size > MaxSize then Some(Error(400, TooLarge))
    else None
  }

  /** The handler's answer, and the name of the file it writes, if any. */
  datatype Reply = Reply(response: Response, saved: Option<string>)

  /** The success body: the generated file name and its public url. */
  function Uploaded(filename: string): Value {
    Obj(map["message" := Str("File uploaded successfully"),
            "url" := Str("/uploads/" + filename),
            "filename" := Str(filename)])
  }

  function Upload(header: Option<string>, verify: string -> Option<Record>, body: UploadBody,
                  now: nat, random: string): (r: Reply)
    // the admin check comes first, then reading the form, then the file checks
    ensures AdminProductsRoute.CheckAdminAuth(header, verify).None?
            ==> r == Reply(Error(403, "Admin access required"), None)
    ensures AdminProductsRoute.CheckAdminAuth(header, verify).Some? && body.Unreadable?
            ==> r == Reply(Error(500, "Failed to upload file"), None)
    ensures (AdminProductsRoute.CheckAdminAuth(header, verify).Some? && body.Form? && FileRejection(body.file).Some?)
            ==> r == Reply(FileRejection(body.file).value, None)
    ensures r.saved.Some? <==> r.response.status == 200
    ensures r.saved.Some? <==> AdminProductsRoute.CheckAdminAuth(header, verify).Some? && body.Form? && Acceptable(body.file)
    ensures r.saved.Some? ==>
      var filename := FileName(now, random, body.file.value.name);
      r.saved == Some(filename) && r.response.body == Uploaded(filename)
  {
    if AdminProductsRoute.CheckAdminAuth(header, verify).None? then Reply(Error(403, "Admin access required"), None)
    else
      match body
      case Unreadable => Reply(Error(500, "Failed to upload file"), None)
      case Form(file) =>
        match FileRejection(file)
        case Some(response) => Reply(response, None)
        case None =>
          var filename := FileName(now, random, file.value.name);
          Reply(Response(200, Uploaded(filename)), Some(filename))
  }

  /** The size limit is inclusive: a file of exactly 10485760 bytes is accepted. */
  lemma {:induction false} ExactlyTenMegabytesAccepted(header: Option<string>, verify: string -> Option<Record>,
                                                       name: string, mimeType: string, now: nat, random: string)
    requires AdminProductsRoute.CheckAdminAuth(header, verify).Some? && mimeType in AllowedTypes
    ensures Upload(header, verify, Form(Some(FileEntry(name, mimeType, 10485760))), now, random).response.status == 200
  {
  }
}

=== FILE: wrappers.dfy ===
/** Option type shared by every module of the model. */
module Wrappers {
  datatype Option<+T> = None | Some(value: T)
}
